=== FILE: README.md ===
# restatic request handler — a Dafny model

restatic is a small HTTP server that serves one local directory (`-d`, default
`"."`). This project models the request handler in `server/handler.go` as pure
functions over an abstract snapshot of the filesystem, and proves properties
of that model. The modelled parts are:

- **`ByteCountIEC`** (module `Size`): the human-readable file size, such as
  `"1023 B"` or `"1.5 MiB"`. The loop that picks the divisor `1024^(exp+1)` and
  the unit letter from `"KMGTPE"` is modelled exactly. `%.1f` is modelled as
  the integer number of tenths, rounded half-to-even.
- **Lexical paths** (modules `Paths` and `FilePaths`):
  - Go's `path.Join` and `path.Clean`. Clean follows the Plan 9 rules of
    "Lexical File Names in Plan 9" and works on a rooted flag plus a
    sequence of segments.
  - `filepath.Rel`, `filepath.Dir` and `filepath.Base`, with Unix semantics.
  - The candidate path `Clean(Join(base, urlPath))` and the index probe
    `Clean(Join(cPath, "index.html"))`.
- **The listing view model** (module `Listing`): `toFInfo`, `toFInfos` and
  `toDInfo`.
- **The response writer** (module `Http`): a small state machine.
  - The header map can change until the first `WriteHeader`.
  - The first `WriteHeader` fixes the status and a snapshot of the headers.
  - `Write` sends an implicit 200 first.
  - `Finish` turns the writer into the response the client sees. A handler
    that wrote nothing answers 200 with an empty body.
  - `http.Error` and `http.NotFound` are modelled as well.
  - One assumption is taken from net/http rather than from this code: a
    superfluous `WriteHeader` is ignored. `Http.WriteHeader` states it.
- **Dispatch** (module `Handler`): `ServeHTTP`, `writeFile` and
  `writeDirectory`.
  - Stat, open and read-directory results are closed datatypes, such as
    `NotExist | Err | Ok(info)`.
  - The template render is an opaque function of the view model.
  - The end of `io.Copy` is a parameter: complete, or broken after `n`
    bytes.
  - `log.Fatal` is the outcome `Abort`.

The served directory (`config.Directory`, `config/main.go:19`) is an
immutable parameter `base`.

Where the code differs from what one might assume, the model follows the code:

- Join-then-Clean does **not** keep a request inside the served directory.
  `Paths.EscapeFromSrv` and `Paths.EscapeFromRootedBase` show `..` climbing
  out of a rooted base. `Paths.EscapeFromDotBase` shows that with the default
  base `"."` the candidate becomes `"../x"`. Containment is proved only for
  URL paths without a `..` segment (`Paths.CandidateExtendsBase`).
- Listing entries whose `Info()` or `Rel` fails become `None` rows. They stay
  in the slice, in place, and are not dropped.
- The parent path of the root listing is `"."`, not empty.
- The handler sets no `Content-Type` for listings.
- When the file copy fails after the 200 has been sent, the status stays 200.
  `write500` still appends its error text, so the body is a prefix of the
  file followed by `"Internal Server Error\n"`, not a bare prefix.

## Model

| member | source | states |
|---|---|---|
| Size.UnitExponent | server/handler.go:40-44 | for every int64 `b >= 1024`, the loop stops with `div = 1024^(exp+1)`, `div <= b < div*1024` and `exp <= 5`, so indexing `"KMGTPE"` is in bounds |
| Size.Scaled | server/handler.go:45-46 | the `%.1f %ciB` text reads back: its digits before the point, times ten, plus the digit after it give the rounded tenths, followed by a space, the unit letter and `iB` |
| Size.ByteCountIEC | server/handler.go:35-47 | the text ends in `" B"` exactly for counts below 1024; every other count ends in a letter of `"KMGTPE"` followed by `"iB"` |
| Size.Scale | server/handler.go:41-44 | each loop step keeps `div = 1024^(exp+1)` and `div <= b`; on exit `b < div*1024`, and `exp` never decreases |
| Size.ExponentBound | server/handler.go:45-46 | an exponent whose divisor fits in an int64 is below 6, the length of `"KMGTPE"` |
| Size.Tenths | server/handler.go:45-46 | the printed number of tenths is within half a tenth of `b/div`, and is even at an exact tie |
| Size.RoundHalfEven | server/handler.go:45 | `x/div` rounded to the nearest integer, ties to even, as `%.1f` rounds its last digit |
| Size.RoundUnique | server/handler.go:45 | only one integer is within half a unit of `x/div` and even at a tie, so the printed digits are determined by `b` and `div` |
| Size.ByteCountSmall | server/handler.go:37-38 | for `0 <= b < 1024` the text is the decimal of `b` followed by `" B"`, and the number reads back as `b` |
| Size.ByteCountLarge | server/handler.go:39-46 | at or above 1024 the text is the tenths of `b/div` with the unit letter of the only exponent whose range holds `b`; the value printed lies between 1.0 and 1024.0 |
| Size.PowUnique | server/handler.go:41-44 | at most one exponent satisfies `1024^(e+1) <= b < 1024^(e+2)`, so the unit letter is determined by `b` |
| Size.TenthsRange | server/handler.go:45-46 | for `div <= b < div*1024`, the rounded tenths lie between 10 and 10240 |
| Size.ByteCountExampleBytes | server/handler.go:37-38 | 1023 formats as `"1023 B"` |
| Size.ByteCountExampleKiB | server/handler.go:39-46 | 1024 formats as `"1.0 KiB"` |
| Size.ByteCountExampleMiB | server/handler.go:39-46 | 1048576 formats as `"1.0 MiB"` |
| Size.ByteCountExampleRoundUp | server/handler.go:39-46 | 1048575 stays in KiB and rounds up to `"1024.0 KiB"` |
| Decimal.Digits | server/handler.go:38 | the decimal of a natural number is non-empty, all digits, with no leading zero |
| Decimal.FormatInt | server/handler.go:135 | `fmt.Sprint` of an int64 starts with `-` exactly for negative values, and the digits after the sign read back as the magnitude |
| Decimal.ParseDigitsOfDigits | server/handler.go:135 | reading back the decimal text gives the original number |
| Decimal.DigitsInjective | server/handler.go:135 | different sizes give different Content-Length texts |
| Paths.Clean | server/handler.go:152 | the Plan 9 rules leave no empty or `.` segment, and `..` only as a leading run of an unrooted path; rootedness is kept |
| Paths.CleanString | server/handler.go:152 | `path.Clean` never returns the empty string, and its result is clean |
| Paths.JoinString | server/handler.go:152 | `path.Join` is empty exactly when both elements are empty, and otherwise already clean |
| Paths.Candidate | server/handler.go:152 | the candidate path is never empty and is a fixed point of `path.Clean`; with a non-empty input the outer Clean changes nothing |
| Paths.SplitConcat | server/handler.go:152 | splitting `x + "/" + y` gives the segments of `x` followed by those of `y` |
| Paths.SplitJoin | server/handler.go:152 | joining slash-free segments and splitting them again gives the segments back |
| Paths.FoldConcat | server/handler.go:152 | cleaning a concatenation is cleaning the first part, then continuing with the second |
| Paths.FoldIdentity | server/handler.go:152 | cleaning leaves an already clean sequence of segments unchanged |
| Paths.FoldExtends | server/handler.go:152 | segments without `..` can only extend what has already been cleaned |
| Paths.CleanOfClean | server/handler.go:152 | Clean is the identity on clean paths |
| Paths.CleanParseRender | server/handler.go:152 | rendering a clean path and parsing it back gives the same path after Clean |
| Paths.CleanStringIdempotent | server/handler.go:152 | `path.Clean(path.Clean(s)) == path.Clean(s)` |
| Paths.CleanStringShape | server/handler.go:152 | cleaning the text of a cleaned path gives the same segments as cleaning the original |
| Paths.JoinClean | server/handler.go:152 | `path.Join` is Clean of the two parts joined by a slash |
| Paths.CandidateIsClean | server/handler.go:152 | the candidate path is non-empty and clean, and a second Clean leaves it unchanged |
| Paths.CandidateExtendsBase | server/handler.go:152 | when the URL path has no `..` segment, the candidate's segments start with those of the cleaned base, with the same rootedness |
| Paths.EscapeFromRootedBase | server/handler.go:152 | for names `a != b`, base `/a` and URL path `/../b` give `/b`, which does not start with the base |
| Paths.EscapeFromSrv | server/handler.go:152 | base `/srv` and URL path `/../etc` give `/etc` |
| Paths.EscapeFromDotBase | server/handler.go:152 | with the default base `"."`, URL path `/../b` gives `../b`, a path outside the served directory |
| Paths.CandidateChild | server/handler.go:166 | probing `Clean(Join(cPath, name))` gives the same path as the candidate of the URL path `urlPath + "/" + name` |
| Paths.JoinChild | server/handler.go:166 | joining a plain name onto a path appends exactly that name to the path's clean form |
| Paths.RenderRooted | server/handler.go:79 | the text of a clean path starts with `/` exactly when it is rooted |
| FilePaths.LastSlash | server/handler.go:84 | the index found is a slash, and no slash follows it |
| FilePaths.Rel | server/handler.go:79-82 | `filepath.Rel` fails whenever exactly one of base and target is rooted, and only then or when the cleaned base contains `..`; a success is never empty (round trip in `FilePaths.RelRoundTrip`, `"."` case in `FilePaths.RelDot`) |
| FilePaths.Dir | server/handler.go:84 | `filepath.Dir` is never empty and already clean (what it drops is stated by `FilePaths.DirOfSegs`) |
| FilePaths.Base | server/handler.go:87 | `filepath.Base` is never empty and is either `/` or a single element without slashes (which element: `FilePaths.BaseOfSegs`) |
| FilePaths.CommonPrefix | server/handler.go:55 | the length of the longest common prefix of two sequences of segments |
| FilePaths.RelDot | server/handler.go:55 | `filepath.Rel` answers `"."` exactly when base and target clean to the same path |
| FilePaths.RelBelow | server/handler.go:79 | a target below the base gives the remaining segments joined by slashes |
| FilePaths.RelRoundTrip | server/handler.go:55 | whenever Rel succeeds, joining the base with the answer and cleaning gives the cleaned target |
| FilePaths.DirOfSegs | server/handler.go:84 | `filepath.Dir` of a clean relative path is the path without its last segment, or `"."` |
| FilePaths.BaseOfSegs | server/handler.go:87-89 | `filepath.Base` of a clean path, rooted (`/srv`) or relative, is its last segment |
| FilePaths.BaseTrailingSlash | server/handler.go:87-89 | trailing slashes of the served directory (`/srv/`) do not change its base |
| FilePaths.DirOfDot | server/handler.go:84-87 | `filepath.Dir(".")` is `"."` |
| FilePaths.CleanOfEmpty | server/handler.go:152 | `path.Clean("")` is `"."` |
| Listing.ToFInfo | server/handler.go:49-68 | the row is absent exactly when `Info()` or Rel fails; otherwise the name, directory flag, mode, time and size come from the entry, the path is the answer of `Rel(base, pwd)`, and that path joined back onto the base is the listed directory |
| Listing.ToFInfos | server/handler.go:70-76 | one row per entry, in the same order, each built from its own entry |
| Listing.ListingAligned | server/handler.go:70-76 | rows line up with entries, `None` rows sit exactly where the entry fails, and all present rows carry the same path |
| Listing.ToDInfo | server/handler.go:78-96 | the record is absent exactly when Rel fails; for the served directory itself it is `(Base(base), ".")` |
| Listing.DInfoOf | server/handler.go:84-95 | a relative path `"."` names the base itself with parent `"."` |
| Listing.DInfoBelow | server/handler.go:78-96 | below the base, the name is `Join(Base(base), rel)` and the parent is `rel` without its last segment |
| Http.FirstStatusWins | server/handler.go:137-141 | after the first WriteHeader, no later header change, write or WriteHeader changes the status or headers sent, and the body only grows |
| Http.FirstWriteHeaderDecides | server/handler.go:137 | the first WriteHeader fixes the final status and the headers set before it |
| Http.WriteHeader | server/handler.go:137 | the first call fixes the status with the headers set so far; any later call changes nothing (net/http's behaviour, taken as an assumption) |
| Http.Write | server/handler.go:139 | a write never changes the status or headers the client sees, only appends to the body; before any status it sends 200 |
| Http.FinishFirstSent | server/handler.go:133-142 | for every sequence of header sets, WriteHeader calls and writes on a writer that has sent nothing, the client sees what an independent account gives: the code of the first WriteHeader, or 200 if a write or the end of the handler comes first, with the headers set before that point |
| Http.SetHeader | server/handler.go:133-135 | a header set adds or replaces exactly that key and leaves every other key, the status and the body alone; after the status was sent the client sees no change |
| Http.LateHeaderIgnored | server/handler.go:133-137 | a header set after the status was sent does not reach the client, which is why the three headers are set before `WriteHeader(200)` |
| Http.Error | server/handler.go:99 | on a fresh writer, `http.Error` gives the code with a plain-text type and `nosniff`; after a status was sent, it only appends its text |
| Http.Write500 | server/handler.go:98-100 | status 500 and the plain-text reason when nothing was sent; otherwise the earlier status and headers stay and the reason is appended |
| Http.NotFound | server/handler.go:156 | status 404 and the plain-text `404 page not found` when nothing was sent |
| Handler.ServeHTTP | server/handler.go:146-178 | the process aborts exactly when stat of the served directory fails |
| Handler.IndexPath | server/handler.go:166 | the index probe is clean and is the candidate's clean form with `index.html` appended |
| Handler.MissingTargetIsNotFound | server/handler.go:154-158 | a missing target gives the plain-text 404 page |
| Handler.FailedStatIsServerError | server/handler.go:160-163 | any other stat failure gives the plain-text 500 page |
| Handler.FileTargetIsServed | server/handler.go:177 | a target that is not a directory is served with writeFile |
| Handler.ServeDirectory | server/handler.go:165-175 | a directory always gets an answer; when the index probe finds a file, its status is that of opening the index file, otherwise 200 exactly when the directory can be read and 500 exactly when it cannot |
| Handler.IndexFallback | server/handler.go:165-170 | a directory whose index probe finds a file serves that file, exactly as a direct request for `<dir>/index.html` would |
| Handler.NoIndexLists | server/handler.go:165-174 | a directory whose probe finds nothing, fails, or finds a directory is listed |
| Handler.WriteFile | server/handler.go:118-144 | on a fresh writer the status depends only on the open result: 404 for a missing file, 500 for other errors, 200 once opened; the body only grows |
| Handler.WriteDirectory | server/handler.go:102-116 | on a fresh writer the status is 500 exactly when reading the directory fails, and 200 exactly when it succeeds |
| Handler.WriteFileMissing | server/handler.go:119-123 | a file that vanished before opening gives a bare 404 with no headers and no body |
| Handler.WriteFileOpenError | server/handler.go:124-127 | any other open failure gives the 500 page, with none of the attachment headers |
| Handler.AttachmentHeaders | server/handler.go:133-135 | the three attachment headers are added with the octet-stream type, the `attachment; filename=` disposition and the decimal size, every other header stays, and nothing is sent |
| Handler.WriteFileHeaders | server/handler.go:130-137 | an opened file is sent with status 200 and exactly the three attachment headers; the Content-Length has a sign exactly for negative sizes and reads back as the size |
| Handler.WriteFileComplete | server/handler.go:139 | a complete copy sends the file's bytes unchanged |
| Handler.WriteFileBroken | server/handler.go:139-142 | a broken copy keeps status 200 and exactly the three attachment headers; the body is a prefix of the file followed by the 500 text |
| Handler.WriteDirectoryError | server/handler.go:105-108 | an unreadable directory gives the 500 page before any 200 |
| Handler.WriteDirectoryListing | server/handler.go:111-115 | a readable directory gives 200 with no header and the rendered view model |

## Left out

- Template parsing and execution (`server/handler.go:103, 112`): the render
  is an opaque function of the view model. A template that fails to parse
  panics in the Go code; that is not modelled.
- `os.Stat`, `os.Open`, `os.ReadDir` and `entry.Info()` are abstract results
  from a filesystem snapshot. Symbolic links and any filesystem semantics
  beyond these results are not modelled.
- `io.Copy` chunking, client disconnects and net/http's enforcement of
  `Content-Length` are not modelled. The copy either completes or breaks
  after `n` bytes. net/http may drop the 500 text appended after a short
  body; the model keeps it.
- Size.Tenths: models `%.1f` of `float64(b)/float64(div)` as exact rational
  rounding, half to even. This agrees with IEEE double arithmetic only for
  `b < 2^53`. Larger sizes can round differently by one tenth.
- `FileMode.String()` and `time.RFC1123` formatting are opaque strings taken
  from the file information.
- net/http's sniffing of a Content-Type for listings is not modelled; the
  handler itself sets none.
- `http.Error` is modelled as Go up to 1.22 defines it. Newer releases also
  delete some headers first; on a fresh writer the result is the same.
- Concurrency: the handler has no shared mutable state. `log.Fatal` is the
  `Abort` outcome.
- `config/main.go`: flag parsing, usage text and log-level selection are left
  out. The directory is a parameter.
- `NewFSHandler` only constructs the empty handler value.
- Handler.ServeHTTP: its own contract states only when it aborts. The
  response for each stat result is stated by the dispatch lemmas that follow
  it.

=== FILE: decimal.dfy ===
/** Decimal rendering of integers, as Go's `%d` verb and `fmt.Sprint` produce it,
    together with the parser that undoes it. */
module Decimal {

  predicate IsDigit(c: char) {
    '0' <= c <= '9'
  }

  function DigitChar(d: nat): (c: char)
    requires d < 10
    ensures IsDigit(c)
    ensures c as int - '0' as int == d
  {
    ('0' as int + d) as char
  }

  function DigitValue(c: char): (d: nat)
    requires IsDigit(c)
    ensures d < 10
    ensures DigitChar(d) == c
  {
    c as int - '0' as int
  }

  /** The shortest decimal numeral of `n`. */
  function Digits(n: nat): (s: string)
    ensures |s| > 0
    ensures forall k :: 0 <= k < |s| ==> IsDigit(s[k])
    ensures |s| > 1 ==> s[0] != '0'
  {
    if n < 10 then [DigitChar(n)] else Digits(n / 10) + [DigitChar(n % 10)]
  }

  /** Go's `%d` for a signed integer: a leading '-' and the numeral of the magnitude. */
  function FormatInt(i: int): (s: string)
    ensures |s| > 0 && ((s[0] == '-') <==> i < 0)
    ensures AllDigits(Unsigned(s)) && ParseDigits(Unsigned(s)) == Abs(i)
  {
    if i < 0 then
      var s := "-" + Digits(-i);
      assert Unsigned(s) == Digits(-i);
      ParseDigitsOfDigits(-i);
      s
    else
      ParseDigitsOfDigits(i);
      Digits(i)
  }

  predicate AllDigits(s: string) {
    forall k :: 0 <= k < |s| ==> IsDigit(s[k])
  }

  /** A numeral without its sign. */
  function Unsigned(s: string): string {
    if |s| > 0 && s[0] == '-' then s[1..] else s
  }

  function Abs(i: int): nat {
    if i < 0 then -i else i
  }

  /** The value of a numeral made of decimal digits. */
  function ParseDigits(s: string): nat
    requires AllDigits(s)
  {
    if |s| == 0 then 0 else ParseDigits(s[..|s| - 1]) * 10 + DigitValue(s[|s| - 1])
  }

  /** Reading back a rendered numeral yields the number. */
  lemma {:induction false} ParseDigitsOfDigits(n: nat)
    ensures ParseDigits(Digits(n)) == n
  {
    if n >= 10 {
      var s := Digits(n);
      assert s[..|s| - 1] == Digits(n / 10);
      ParseDigitsOfDigits(n / 10);
    }
  }

  /** Distinct numbers have distinct numerals. */
  lemma DigitsInjective(m: nat, n: nat)
    requires Digits(m) == Digits(n)
    ensures m == n
  {
    ParseDigitsOfDigits(m);
    ParseDigitsOfDigits(n);
  }
}

=== FILE: filepaths.dfy ===
/** Go's `path/filepath` functions the handler uses for breadcrumbs, on Unix
    (separator '/', no volume names): `Base`, `Dir` and `Rel`. */
module FilePaths {
  import opened Wrappers
  import opened Paths

  /** Position of the last '/' in `s`, or -1 when there is none. */
  function LastSlash(s: string): (i: int)
    ensures -1 <= i < |s|
    ensures i >= 0 ==> s[i] == '/'
    ensures NoSlash(s[i + 1..])
  {
    if |s| == 0 then -1
    else if s[|s| - 1] == '/' then |s| - 1
    else
      var i := LastSlash(s[..|s| - 1]);
      NoSlashSnoc(s, i);
      i
  }

  lemma NoSlashSnoc(s: string, i: int)
    requires |s| > 0 && -1 <= i < |s| - 1 && s[|s| - 1] != '/'
    requires NoSlash(s[..|s| - 1][i + 1..])
    ensures NoSlash(s[i + 1..])
  {
    assert s[i + 1..] == s[..|s| - 1][i + 1..] + [s[|s| - 1]];
  }

  function TrimTrailingSlashes(s: string): (t: string)
    ensures t <= s
    ensures |t| == 0 || t[|t| - 1] != '/'
    ensures forall k :: |t| <= k < |s| ==> s[k] == '/'
  {
    if |s| > 0 && s[|s| - 1] == '/' then TrimTrailingSlashes(s[..|s| - 1]) else s
  }

  /** `filepath.Base`: the last element, "." for the empty string, "/" for a
      string of slashes only. */
  function Base(s: string): (r: string)
    ensures |r| > 0
    ensures r == "/" || NoSlash(r)
  {
    if s == "" then "."
    else
      var t := TrimTrailingSlashes(s);
      if t == "" then "/" else t[LastSlash(t) + 1..]
  }

  /** `filepath.Dir`: everything up to the last separator, cleaned; never
      empty, and already in clean form. */
  function Dir(s: string): (d: string)
    ensures |d| > 0 && CleanString(d) == d
  {
    CleanStringIdempotent(s[..LastSlash(s) + 1]);
    CleanString(s[..LastSlash(s) + 1])
  }

  /** Length of the longest common prefix of two segment lists. */
  function CommonPrefix(a: seq<Segment>, b: seq<Segment>): (n: nat)
    ensures n <= |a| && n <= |b|
    ensures a[..n] == b[..n]
    ensures n < |a| && n < |b| ==> a[n] != b[n]
  {
    if |a| == 0 || |b| == 0 || a[0] != b[0] then 0
    else
      var n := CommonPrefix(a[1..], b[1..]);
      assert a[..n + 1] == [a[0]] + a[1..][..n];
      assert b[..n + 1] == [b[0]] + b[1..][..n];
      n + 1
  }

  function Ups(k: nat): (u: seq<Segment>)
    ensures |u| == k
    ensures forall i :: 0 <= i < k ==> u[i] == ".."
  {
    if k == 0 then [] else Ups(k - 1) + [".."]
  }

  /** The elements `Rel` walks in a clean target string: the relative empty
      path is the single element ".", which is how Go spells it. */
  function TargetSegs(t: Path): seq<Segment> {
    if !t.rooted && |t.segs| == 0 then ["."] else t.segs
  }

  /** `filepath.Rel(basepath, targpath)`: both are cleaned; equal paths give
      "."; a base "." is the empty base; differing rootedness fails; after the
      common leading elements, a remaining base element ".." fails, and
      otherwise one ".." per remaining base element is followed by the
      remaining target elements. */
  function Rel(basepath: string, targpath: string): (r: Option<string>)
    ensures Clean(Parse(basepath)).rooted != Clean(Parse(targpath)).rooted ==> r.None?
    ensures r.None? ==> Clean(Parse(basepath)).rooted != Clean(Parse(targpath)).rooted
                        || ".." in Clean(Parse(basepath)).segs
    ensures r.Some? ==> |r.value| > 0
  {
    var b := Clean(Parse(basepath));
    var t := Clean(Parse(targpath));
    RenderRooted(b);
    RenderRooted(t);
    if Render(b) == Render(t) then Some(".")
    else if b.rooted != t.rooted then None
    else
      var ts := TargetSegs(t);
      var n := CommonPrefix(b.segs, ts);
      if n < |b.segs| && b.segs[n] == ".." then None
      else
        UpsSegsShape(b, t, n);
        JoinSegsHead(Ups(|b.segs| - n) + ts[n..]);
        Some(JoinSegs(Ups(|b.segs| - n) + ts[n..]))
  }

  // ---------------------------------------------------------------------------
  // Properties of Rel

  lemma RenderInjective(p: Path, q: Path)
    requires IsClean(p) && IsClean(q) && Render(p) == Render(q)
    ensures p == q
  {
    CleanParseRender(p);
    CleanParseRender(q);
  }

  lemma JoinSegsPrefix(segs: seq<Segment>)
    requires |segs| >= 1
    ensures segs[0] <= JoinSegs(segs)
  {
  }

  /** A relative path that does not start with a ".." element. */
  lemma UpsSegsShape(b: Path, t: Path, n: nat)
    requires IsClean(b) && IsClean(t) && b.rooted == t.rooted && b != t
    requires n == CommonPrefix(b.segs, TargetSegs(t))
    ensures |Ups(|b.segs| - n) + TargetSegs(t)[n..]| >= 1
    ensures (Ups(|b.segs| - n) + TargetSegs(t)[n..])[0] != "."
    ensures (Ups(|b.segs| - n) + TargetSegs(t)[n..])[0] != ""
    ensures AllNoSlash(Ups(|b.segs| - n) + TargetSegs(t)[n..])
  {
  }

  /** `Rel` answers "." exactly when the two paths clean to the same string. */
  lemma RelDot(basepath: string, targpath: string)
    ensures Rel(basepath, targpath) == Some(".") <==> CleanString(basepath) == CleanString(targpath)
  {
    var b := Clean(Parse(basepath));
    var t := Clean(Parse(targpath));
    if Render(b) != Render(t) && b.rooted == t.rooted {
      var ts := TargetSegs(t);
      var n := CommonPrefix(b.segs, ts);
      if !(n < |b.segs| && b.segs[n] == "..") {
        var u := Ups(|b.segs| - n) + ts[n..];
        UpsSegsShape(b, t, n);
        JoinSegsPrefix(u);
      }
    }
  }

  /** A target below the base, by clean segments `s`, is reported as those
      segments. */
  lemma RelBelow(basepath: string, targpath: string, s: seq<Segment>)
    requires |s| >= 1
    requires Clean(Parse(targpath))
          == Path(Clean(Parse(basepath)).rooted, Clean(Parse(basepath)).segs + s)
    ensures Rel(basepath, targpath) == Some(JoinSegs(s))
  {
    var b := Clean(Parse(basepath));
    var t := Clean(Parse(targpath));
    if Render(b) == Render(t) {
      RenderInjective(b, t);
    }
    var n := CommonPrefix(b.segs, t.segs);
    assert n == |b.segs|;
    assert t.segs[n..] == s;
    assert Ups(0) + s == s;
  }

  /** Each ".." removes one trailing real element. */
  lemma {:induction false} FoldUps(rooted: bool, p: seq<Segment>, q: seq<Segment>)
    requires NoDotDot(q)
    ensures Fold(rooted, p + q, Ups(|q|)) == p
    decreases |q|
  {
    if |q| > 0 {
      var k := |q|;
      var q' := q[..k - 1];
      assert (p + q)[|p + q| - 1] == q[k - 1];
      assert (p + q)[..|p + q| - 1] == p + q';
      assert Step(rooted, p + q, "..") == p + q';
      assert Ups(k)[1..] == Ups(k - 1);
      FoldUps(rooted, p, q');
    } else {
      assert p + q == p;
    }
  }

  /** Joining the base with what `Rel` returned leads back to the target:
      `Clean(Join(base, Rel(base, targ))) == Clean(targ)`. */
  lemma RelRoundTrip(basepath: string, targpath: string, r: string)
    requires Rel(basepath, targpath) == Some(r)
    ensures CleanString(JoinString(basepath, r)) == CleanString(targpath)
  {
    var b := Clean(Parse(basepath));
    var t := Clean(Parse(targpath));
    if Render(b) == Render(t) {
      SplitNoSlash(".");
      JoinClean(basepath, ".");
      assert Fold(Parse(basepath).rooted, b.segs, ["."]) == b.segs;
    } else {
      RelRoundTripUp(basepath, targpath, r);
    }
  }

  lemma RelRoundTripUp(basepath: string, targpath: string, r: string)
    requires Rel(basepath, targpath) == Some(r)
    requires Render(Clean(Parse(basepath))) != Render(Clean(Parse(targpath)))
    ensures Clean(Parse(JoinString(basepath, r))) == Clean(Parse(targpath))
  {
    var b := Clean(Parse(basepath));
    var t := Clean(Parse(targpath));
    var n := CommonPrefix(b.segs, TargetSegs(t));
    UpJoin(basepath, b, t, n, r);
  }

  /** The path-level core of the round trip. */
  lemma UpJoin(basepath: string, b: Path, t: Path, n: nat, r: string)
    requires b == Clean(Parse(basepath)) && IsClean(t)
    requires b.rooted == t.rooted && b != t
    requires n == CommonPrefix(b.segs, TargetSegs(t))
    requires !(n < |b.segs| && b.segs[n] == "..")
    requires r == JoinSegs(Ups(|b.segs| - n) + TargetSegs(t)[n..])
    ensures Clean(Parse(JoinString(basepath, r))) == t
  {
    var u := Ups(|b.segs| - n) + TargetSegs(t)[n..];
    UpsSegsShape(b, t, n);
    JoinSegsPrefix(u);
    SplitJoin(u);
    JoinClean(basepath, r);
    FoldBack(b, t, n);
  }

  /** Climbing out of the base's unmatched elements and descending into the
      target's remaining ones ends at the target. */
  lemma FoldBack(b: Path, t: Path, n: nat)
    requires IsClean(b) && IsClean(t) && b.rooted == t.rooted
    requires n == CommonPrefix(b.segs, TargetSegs(t))
    requires !(n < |b.segs| && b.segs[n] == "..")
    ensures Fold(b.rooted, b.segs, Ups(|b.segs| - n) + TargetSegs(t)[n..]) == t.segs
  {
    var ts := TargetSegs(t);
    FoldConcat(b.rooted, b.segs, Ups(|b.segs| - n), ts[n..]);
    ClimbToCommon(b, n);
    assert b.segs[..n] == ts[..n];
    FoldTail(t, n);
  }

  /** Climbing out of the base's elements after the common prefix. */
  lemma ClimbToCommon(b: Path, n: nat)
    requires IsClean(b) && n <= |b.segs|
    requires !(n < |b.segs| && b.segs[n] == "..")
    ensures Fold(b.rooted, b.segs, Ups(|b.segs| - n)) == b.segs[..n]
  {
    NoDotDotAfter(b, n);
    assert b.segs == b.segs[..n] + b.segs[n..];
    FoldUps(b.rooted, b.segs[..n], b.segs[n..]);
  }

  lemma FoldTail(t: Path, n: nat)
    requires IsClean(t) && n <= |TargetSegs(t)|
    requires TargetSegs(t) == ["."] ==> n == 0
    ensures Fold(t.rooted, TargetSegs(t)[..n], TargetSegs(t)[n..]) == t.segs
  {
    var ts := TargetSegs(t);
    if ts == t.segs {
      assert ts == ts[..n] + ts[n..];
      FoldIdentity(t.rooted, ts[..n], ts[n..]);
    }
  }

  /** In a clean path, nothing after a non-".." element is "..". */
  lemma NoDotDotAfter(b: Path, n: nat)
    requires IsClean(b) && n <= |b.segs|
    requires n < |b.segs| ==> b.segs[n] != ".."
    ensures NoDotDot(b.segs[n..])
  {
  }

  // ---------------------------------------------------------------------------
  // Dir and Base of a relative clean path

  lemma {:induction false} JoinSegsSnoc(segs: seq<Segment>)
    requires |segs| >= 2
    ensures JoinSegs(segs) == JoinSegs(segs[..|segs| - 1]) + "/" + segs[|segs| - 1]
    decreases |segs|
  {
    if |segs| > 2 {
      JoinSegsSnoc(segs[1..]);
      assert segs[1..][..|segs| - 2] == segs[..|segs| - 1][1..];
    }
  }

  lemma {:induction false} LastSlashOf(x: string, y: string)
    requires NoSlash(y)
    ensures LastSlash(x + "/" + y) == |x|
    decreases |y|
  {
    var s := x + "/" + y;
    if |y| > 0 {
      assert s[..|s| - 1] == x + "/" + y[..|y| - 1];
      LastSlashOf(x, y[..|y| - 1]);
    }
  }

  /** The directory of `e1/.../en` is `e1/.../e(n-1)`, or "." for one element. */
  lemma DirOfSegs(segs: seq<Segment>)
    requires |segs| >= 1 && CleanSegs(false, segs) && AllNoSlash(segs)
    ensures Dir(JoinSegs(segs)) == Render(Path(false, segs[..|segs| - 1]))
  {
    if |segs| == 1 {
      DirOfOne(segs);
    } else {
      DirOfMany(segs);
    }
  }

  lemma DirOfOne(segs: seq<Segment>)
    requires |segs| == 1 && AllNoSlash(segs)
    ensures Dir(JoinSegs(segs)) == Render(Path(false, segs[..0]))
  {
    assert JoinSegs(segs) == segs[0];
    DirOfName(segs[0]);
  }

  lemma DirOfMany(segs: seq<Segment>)
    requires |segs| >= 2 && CleanSegs(false, segs) && AllNoSlash(segs)
    ensures Dir(JoinSegs(segs)) == Render(Path(false, segs[..|segs| - 1]))
  {
    var init := segs[..|segs| - 1];
    var y := segs[|segs| - 1];
    InitClean(segs);
    JoinSegsSnoc(segs);
    assert JoinSegs(segs) == JoinSegs(init) + "/" + y;
    DirOfSlash(JoinSegs(init), y);
    DirOfInit(init);
  }

  lemma InitClean(segs: seq<Segment>)
    requires |segs| >= 1 && CleanSegs(false, segs) && AllNoSlash(segs)
    ensures CleanSegs(false, segs[..|segs| - 1]) && AllNoSlash(segs[..|segs| - 1])
    ensures NoSlash(segs[|segs| - 1])
  {
  }

  lemma DirOfName(y: string)
    requires NoSlash(y)
    ensures Dir(y) == "."
  {
    assert LastSlash(y) == -1;
    assert y[..0] == "";
    CleanOfEmpty();
  }

  lemma DirOfSlash(x: string, y: string)
    requires NoSlash(y)
    ensures Dir(x + "/" + y) == CleanString(x + "/" + "")
  {
    LastSlashOf(x, y);
    assert (x + "/" + y)[..|x| + 1] == x + "/" + "";
  }

  lemma DirOfInit(init: seq<Segment>)
    requires |init| >= 1 && CleanSegs(false, init) && AllNoSlash(init)
    ensures CleanString(JoinSegs(init) + "/" + "") == Render(Path(false, init))
  {
    var x := JoinSegs(init);
    ParseConcat(x, "");
    assert Render(Path(false, init)) == x;
    ParseRenderShape(Path(false, init));
    assert Parse(x) == Path(false, init);
    FoldIdentity(false, [], init);
    assert [] + init == init;
    FoldConcat(false, [], init, [""]);
    assert Fold(false, init, [""]) == init;
  }

  /** The base of a clean path `e1/.../en` or `/e1/.../en` is `en`. */
  lemma BaseOfSegs(rooted: bool, segs: seq<Segment>)
    requires |segs| >= 1 && CleanSegs(rooted, segs) && AllNoSlash(segs)
    ensures Base(Render(Path(rooted, segs))) == segs[|segs| - 1]
  {
    var y := segs[|segs| - 1];
    assert y != "" && NoSlash(y);
    if |segs| == 1 {
      if rooted {
        assert Render(Path(rooted, segs)) == "" + "/" + y;
        BaseOfLast("", y);
      } else {
        BaseOfName(y);
      }
    } else {
      JoinSegsSnoc(segs);
      var x := JoinSegs(segs[..|segs| - 1]);
      if rooted {
        assert Render(Path(rooted, segs)) == ("/" + x) + "/" + y;
        BaseOfLast("/" + x, y);
      } else {
        BaseOfLast(x, y);
      }
    }
  }

  lemma BaseOfName(y: string)
    requires y != "" && NoSlash(y)
    ensures Base(y) == y
  {
    assert LastSlash(y) == -1;
    assert y[0..] == y;
  }

  lemma BaseOfLast(x: string, y: string)
    requires y != "" && NoSlash(y)
    ensures Base(x + "/" + y) == y
  {
    var s := x + "/" + y;
    LastSlashOf(x, y);
    assert s[|s| - 1] == y[|y| - 1];
    assert s[|x| + 1..] == y;
  }

  /** Trailing slashes do not change the base: `Base("/srv/") == Base("/srv")`. */
  lemma BaseTrailingSlash(s: string)
    requires s != ""
    ensures Base(s + "/") == Base(s)
  {
    var u := s + "/";
    assert u[|u| - 1] == '/' && u[..|u| - 1] == s;
    assert TrimTrailingSlashes(u) == TrimTrailingSlashes(s);
  }

  lemma DirOfDot(rel: string)
    requires rel == "."
    ensures Dir(rel) == "."
  {
    assert LastSlash(".") == -1;
    assert "."[..0] == "";
    CleanOfEmpty();
  }

  lemma CleanOfEmpty()
    ensures CleanString("") == "."
  {
    var p := Parse("");
    assert p == Path(false, [""]);
    assert Fold(false, [], [""]) == [];
    assert Clean(p) == Path(false, []);
  }
}

=== FILE: fs.dfy ===
/** The filesystem as the handler sees it: the results of `os.Stat`,
    `os.Open`, `os.ReadDir` and `DirEntry.Info`, as closed alternatives. */
module Fs {
  import opened Size

  /** The parts of `os.FileInfo` the handler reads. `mode` and `modTime` stand
      for the already formatted `Mode().String()` and RFC 1123 time. */
  datatype FileInfo = FileInfo(name: string, size: Int64, isDir: bool, mode: string, modTime: string)

  /** An error is either "does not exist" (`os.IsNotExist`) or anything else. */
  datatype StatResult = NotExist | Err | Ok(info: FileInfo)

  type Byte = x: int | 0 <= x < 256

  /** Opening a file: on success, the bytes a full read would deliver. */
  datatype OpenResult = OpenNotExist | OpenErr | Opened(data: seq<Byte>)

  /** One element of `os.ReadDir`: its name, `Type().IsDir()`, and what its
      `Info()` call returns. */
  datatype DirEntry = DirEntry(name: string, isDir: bool, info: StatResult)

  datatype ReadDirResult = ReadDirErr | Entries(entries: seq<DirEntry>)

  /** A snapshot of the filesystem: what each call returns for each path. */
  datatype FileSystem = FileSystem(
    stat: string -> StatResult,
    open: string -> OpenResult,
    readDir: string -> ReadDirResult)
}

=== FILE: handler.dfy ===
/** `fsHandler.ServeHTTP`, `writeFile` and `writeDirectory`: from a request
    path and a filesystem snapshot to the response (or to the process abort
    that `log.Fatal` causes). */
module Handler {
  import opened Decimal
  import opened Paths
  import opened Fs
  import opened Listing
  import opened Http

  /** How `io.Copy` ends: with every byte delivered, or with an error after
      `delivered` bytes (a read error or a client gone away). */
  datatype Transfer = Complete | BrokenAfter(delivered: nat)

  /** Everything outside the handler's own logic that a request depends on:
      the filesystem, the template (`dir.html` in `layout.html`) as a render
      of the view model, and how the file copy ends. */
  datatype Env = Env(fs: FileSystem, render: DirList -> seq<Byte>, transfer: Transfer)

  datatype Outcome = Abort | Respond(response: Response)

  const OctetStream: string := "application/octet-stream"
  const IndexName: string := "index.html"

  function Disposition(name: string): string {
    "attachment; filename=" + name
  }

  /** The three attachment headers set before status 200. */
  function AttachmentHeaders(w: Writer, info: FileInfo): (r: Writer)
    ensures r.sent == w.sent && r.body == w.body
    ensures r.header.Keys == w.header.Keys + {ContentType, ContentDisposition, ContentLength}
    ensures r.header[ContentType] == OctetStream
    ensures r.header[ContentDisposition] == Disposition(info.name)
    ensures r.header[ContentLength] == FormatInt(info.size)
    ensures forall k :: k in w.header && k !in {ContentType, ContentDisposition, ContentLength} ==> r.header[k] == w.header[k]
  {
    var w1 := SetHeader(w, ContentType, OctetStream);
    var w2 := SetHeader(w1, ContentDisposition, Disposition(info.name));
    SetHeader(w2, ContentLength, FormatInt(info.size))
  }

  /** The status each `os.Open` result leads to in `writeFile`. */
  function OpenStatus(o: OpenResult): int {
    match o
    case OpenNotExist => StatusNotFound
    case OpenErr => StatusInternalServerError
    case Opened(_) => StatusOK
  }

  /** `writeFile(w, path, info)`: on a writer with nothing sent, the status is
      decided by the open result alone; the body only grows. */
  function WriteFile(env: Env, w: Writer, path: string, info: FileInfo): (r: Writer)
    ensures w.body <= r.body
    ensures w.sent.None? ==> Finish(r).status == OpenStatus(env.fs.open(path))
  {
    match env.fs.open(path)
    case OpenNotExist => WriteHeader(w, StatusNotFound)
    case OpenErr => Write500(w)
    case Opened(data) =>
      var w1 := WriteHeader(AttachmentHeaders(w, info), StatusOK);
      match env.transfer
      case Complete => Write(w1, data)
      case BrokenAfter(n) =>
        var k := if n < |data| then n else |data|;
        Write500(Write(w1, data[..k]))
  }

  /** `writeDirectory(w, path, dirInfo)`; the handler never reads `dirInfo`. */
  function WriteDirectory(env: Env, base: string, w: Writer, path: string): (r: Writer)
    ensures w.body <= r.body
    ensures w.sent.None? ==> (Finish(r).status == StatusInternalServerError <==> env.fs.readDir(path).ReadDirErr?)
    ensures w.sent.None? ==> (Finish(r).status == StatusOK <==> env.fs.readDir(path).Entries?)
  {
    match env.fs.readDir(path)
    case ReadDirErr => Write500(w)
    case Entries(files) =>
      var view := DirList(ToFInfos(files, base, path), ToDInfo(base, path));
      Write(WriteHeader(w, StatusOK), env.render(view))
  }

  /** The directory-index probe path `path.Clean(path.Join(cPath, "index.html"))`. */
  function IndexPath(cPath: string): (r: string)
    ensures CleanString(r) == r
    ensures Clean(Parse(r)) == Path(Clean(Parse(cPath)).rooted, Clean(Parse(cPath)).segs + [IndexName])
  {
    assert PlainName(IndexName);
    JoinChild(cPath, IndexName);
    CleanString(JoinString(cPath, IndexName))
  }

  /** `ServeHTTP` for the served directory `base` and the request's URL path. */
  function ServeHTTP(env: Env, base: string, urlPath: string): (o: Outcome)
    ensures o.Abort? <==> !env.fs.stat(base).Ok?
  {
    if !env.fs.stat(base).Ok? then Abort
    else
      var cPath := Candidate(base, urlPath);
      match env.fs.stat(cPath)
      case NotExist => Respond(Finish(NotFound(Fresh)))
      case Err => Respond(Finish(Write500(Fresh)))
      case Ok(info) =>
        if info.isDir then ServeDirectory(env, base, cPath)
        else Respond(Finish(WriteFile(env, Fresh, cPath, info)))
  }

  /** The probe for `index.html` in directory `cPath` finds a non-directory. */
  predicate HasIndexFile(env: Env, cPath: string) {
    env.fs.stat(IndexPath(cPath)).Ok? && !env.fs.stat(IndexPath(cPath)).info.isDir
  }

  /** The directory branch of `ServeHTTP`: serve `index.html` when the probe
      finds a file there, list the directory otherwise. Either way the
      handler answers; the status is the index file's open status, or that
      of reading the directory. */
  function ServeDirectory(env: Env, base: string, cPath: string): (o: Outcome)
    ensures o.Respond?
    ensures HasIndexFile(env, cPath) ==> o.response.status == OpenStatus(env.fs.open(IndexPath(cPath)))
    ensures !HasIndexFile(env, cPath)
        ==> (o.response.status == StatusOK <==> env.fs.readDir(cPath).Entries?)
    ensures !HasIndexFile(env, cPath)
        ==> (o.response.status == StatusInternalServerError <==> env.fs.readDir(cPath).ReadDirErr?)
  {
    var iPath := IndexPath(cPath);
    match env.fs.stat(iPath)
    case Ok(iInfo) =>
      if !iInfo.isDir then Respond(Finish(WriteFile(env, Fresh, iPath, iInfo)))
      else Respond(Finish(WriteDirectory(env, base, Fresh, cPath)))
    case _ => Respond(Finish(WriteDirectory(env, base, Fresh, cPath)))
  }

  // ---------------------------------------------------------------------------
  // Error mapping of the dispatch

  /** The plain-text error page `http.Error` produces on a fresh writer. */
  function ErrorPage(line: seq<Byte>, code: int): Response {
    Response(code, map[ContentType := PlainText, ContentTypeOptions := "nosniff"], line)
  }

  /** A missing target is a 404 page, whatever else exists. */
  lemma MissingTargetIsNotFound(env: Env, base: string, urlPath: string)
    requires env.fs.stat(base).Ok?
    requires env.fs.stat(Candidate(base, urlPath)) == NotExist
    ensures ServeHTTP(env, base, urlPath) == Respond(ErrorPage(NotFoundLine, StatusNotFound))
  {
  }

  /** Any other stat failure of the target is a 500 page. */
  lemma FailedStatIsServerError(env: Env, base: string, urlPath: string)
    requires env.fs.stat(base).Ok?
    requires env.fs.stat(Candidate(base, urlPath)) == Err
    ensures ServeHTTP(env, base, urlPath) == Respond(ErrorPage(InternalServerErrorLine, StatusInternalServerError))
  {
  }

  // ---------------------------------------------------------------------------
  // Dispatch between file, index and listing

  /** A target that is not a directory is served as a file. */
  lemma FileTargetIsServed(env: Env, base: string, urlPath: string, info: FileInfo)
    requires env.fs.stat(base).Ok?
    requires env.fs.stat(Candidate(base, urlPath)) == Ok(info) && !info.isDir
    ensures ServeHTTP(env, base, urlPath) == Respond(Finish(WriteFile(env, Fresh, Candidate(base, urlPath), info)))
  {
  }

  /** A directory whose `index.html` probe finds a non-directory serves that
      file, and answers exactly as a direct request for `<dir>/index.html`. */
  lemma IndexFallback(env: Env, base: string, urlPath: string, dirInfo: FileInfo, iInfo: FileInfo)
    requires base != "" || urlPath != ""
    requires env.fs.stat(base).Ok?
    requires env.fs.stat(Candidate(base, urlPath)) == Ok(dirInfo) && dirInfo.isDir
    requires env.fs.stat(IndexPath(Candidate(base, urlPath))) == Ok(iInfo) && !iInfo.isDir
    ensures ServeHTTP(env, base, urlPath)
         == Respond(Finish(WriteFile(env, Fresh, IndexPath(Candidate(base, urlPath)), iInfo)))
    ensures ServeHTTP(env, base, urlPath) == ServeHTTP(env, base, urlPath + "/" + IndexName)
  {
    CandidateChild(base, urlPath, IndexName);
  }

  /** A directory whose probe finds nothing, fails, or finds a directory is
      listed. */
  lemma NoIndexLists(env: Env, base: string, urlPath: string, dirInfo: FileInfo)
    requires env.fs.stat(base).Ok?
    requires env.fs.stat(Candidate(base, urlPath)) == Ok(dirInfo) && dirInfo.isDir
    requires !(env.fs.stat(IndexPath(Candidate(base, urlPath))).Ok?
               && !env.fs.stat(IndexPath(Candidate(base, urlPath))).info.isDir)
    ensures ServeHTTP(env, base, urlPath)
         == Respond(Finish(WriteDirectory(env, base, Fresh, Candidate(base, urlPath))))
  {
    var cPath := Candidate(base, urlPath);
    assert ServeHTTP(env, base, urlPath) == ServeDirectory(env, base, cPath);
    match env.fs.stat(IndexPath(cPath))
    case Ok(iInfo) =>
      assert iInfo.isDir;
    case _ =>
  }

  // ---------------------------------------------------------------------------
  // writeFile

  /** The file vanished before `os.Open`: a bare 404, no headers, no body. */
  lemma WriteFileMissing(env: Env, path: string, info: FileInfo)
    requires env.fs.open(path) == OpenNotExist
    ensures Finish(WriteFile(env, Fresh, path, info)) == Response(StatusNotFound, map[], [])
  {
  }

  /** Any other open failure: a 500 page that carries none of the attachment
      headers. */
  lemma WriteFileOpenError(env: Env, path: string, info: FileInfo)
    requires env.fs.open(path) == OpenErr
    ensures var r := Finish(WriteFile(env, Fresh, path, info));
      && r == ErrorPage(InternalServerErrorLine, StatusInternalServerError)
      && ContentDisposition !in r.header && ContentLength !in r.header
      && r.header[ContentType] != OctetStream
  {
  }

  /** An opened file is sent with exactly the three attachment headers and
      status 200; the declared length reads back as the file's size. */
  lemma WriteFileHeaders(env: Env, path: string, info: FileInfo, data: seq<Byte>)
    requires env.fs.open(path) == Opened(data)
    ensures var r := Finish(WriteFile(env, Fresh, path, info));
      && r.status == StatusOK
      && r.header == map[ContentType := OctetStream,
                         ContentDisposition := Disposition(info.name),
                         ContentLength := FormatInt(info.size)]
      && ((r.header[ContentLength][0] == '-') <==> info.size < 0)
      && ParseDigits(Unsigned(r.header[ContentLength])) == Abs(info.size)
  {
  }

  /** A complete copy sends the file's bytes unchanged. */
  lemma WriteFileComplete(env: Env, path: string, info: FileInfo, data: seq<Byte>)
    requires env.fs.open(path) == Opened(data) && env.transfer == Complete
    ensures Finish(WriteFile(env, Fresh, path, info)).body == data
  {
  }

  /** A copy that breaks cannot change the status already sent: it stays 200
      with the attachment headers; the body starts with a prefix of the file,
      followed by the text `write500` adds. */
  lemma WriteFileBroken(env: Env, path: string, info: FileInfo, data: seq<Byte>, n: nat)
    requires env.fs.open(path) == Opened(data) && env.transfer == BrokenAfter(n)
    ensures var r := Finish(WriteFile(env, Fresh, path, info));
      && r.status == StatusOK
      && r.header == map[ContentType := OctetStream,
                         ContentDisposition := Disposition(info.name),
                         ContentLength := FormatInt(info.size)]
      && r.body == data[..if n < |data| then n else |data|] + InternalServerErrorLine
  {
    var w0 := AttachmentHeaders(Fresh, info);
    FreshAttachment(info);
    var w1 := WriteHeader(w0, StatusOK);
    var k := if n < |data| then n else |data|;
    var w2 := Write(w1, data[..k]);
    assert w2.sent == w1.sent && w1.sent.value == Sent(StatusOK, w0.header);
    assert w2.body == data[..k];
    assert WriteFile(env, Fresh, path, info) == Write500(w2);
  }

  /** On a fresh writer the attachment headers are the only headers. */
  lemma FreshAttachment(info: FileInfo)
    ensures AttachmentHeaders(Fresh, info).header
         == map[ContentType := OctetStream,
                ContentDisposition := Disposition(info.name),
                ContentLength := FormatInt(info.size)]
  {
  }

  // ---------------------------------------------------------------------------
  // writeDirectory

  /** An unreadable directory is a 500 page, sent before any 200. */
  lemma WriteDirectoryError(env: Env, base: string, path: string)
    requires env.fs.readDir(path) == ReadDirErr
    ensures Finish(WriteDirectory(env, base, Fresh, path))
         == ErrorPage(InternalServerErrorLine, StatusInternalServerError)
  {
  }

  /** A readable directory answers 200 with no header set by the handler (in
      particular no Content-Type) and the rendered listing. */
  lemma WriteDirectoryListing(env: Env, base: string, path: string, files: seq<DirEntry>)
    requires env.fs.readDir(path) == Entries(files)
    ensures var r := Finish(WriteDirectory(env, base, Fresh, path));
      && r.status == StatusOK
      && r.header == map[]
      && r.body == env.render(DirList(ToFInfos(files, base, path), ToDInfo(base, path)))
  {
  }
}

=== FILE: http.dfy ===
/** The part of `net/http`'s ResponseWriter the handler relies on, as a small
    state machine: a header map the handler may change, a status line (with a
    snapshot of the headers) fixed by the first `WriteHeader`, and a body. */
module Http {
  import opened Wrappers
  import opened Fs

  type Header = map<string, string>

  datatype Sent = Sent(status: int, header: Header)

  datatype Writer = Writer(header: Header, sent: Option<Sent>, body: seq<Byte>)

  /** What the client receives once the handler returns. */
  datatype Response = Response(status: int, header: Header, body: seq<Byte>)

  const StatusOK: int := 200
  const StatusNotFound: int := 404
  const StatusInternalServerError: int := 500

  const ContentType: string := "Content-Type"
  const ContentDisposition: string := "Content-Disposition"
  const ContentLength: string := "Content-Length"
  const ContentTypeOptions: string := "X-Content-Type-Options"

  /** The writer handed to a fresh request. */
  const Fresh: Writer := Writer(map[], None, [])

  /** `w.Header().Set(k, v)`: changes the map; once the status is sent the
      change no longer reaches the client. */
  function SetHeader(w: Writer, k: string, v: string): (r: Writer)
    ensures r.header.Keys == w.header.Keys + {k} && r.header[k] == v
    ensures forall j :: j in w.header && j != k ==> r.header[j] == w.header[j]
    ensures r.sent == w.sent && r.body == w.body
    ensures w.sent.Some? ==> Finish(r) == Finish(w)
  {
    w.(header := w.header[k := v])
  }

  /** `w.WriteHeader(code)`. Only the first call has an effect. That later
      calls are ignored is net/http's behaviour (it logs a "superfluous
      WriteHeader call"), taken here as an assumption. */
  function WriteHeader(w: Writer, code: int): (r: Writer)
    ensures r.sent.Some? && r.header == w.header && r.body == w.body
    ensures w.sent.Some? ==> r == w
    ensures w.sent.None? ==> Finish(r) == Response(code, w.header, w.body)
  {
    if w.sent.Some? then w else w.(sent := Some(Sent(code, w.header)))
  }

  /** `w.Write(data)`: sends status 200 first if nothing was sent yet, so the
      client sees the same status and headers as before, and more body. */
  function Write(w: Writer, data: seq<Byte>): (r: Writer)
    ensures r.sent.Some?
    ensures Finish(r) == Finish(w).(body := w.body + data)
  {
    var w' := WriteHeader(w, StatusOK);
    w'.(body := w'.body + data)
  }

  /** What the client receives: the status and the header snapshot of the
      first `WriteHeader`, or 200 with the current headers when nothing was
      sent. */
  function Finish(w: Writer): Response {
    match w.sent
    case Some(s) => Response(s.status, s.header, w.body)
    case None => Response(StatusOK, w.header, w.body)
  }

  /** A header set after the status was sent never reaches the client. */
  lemma LateHeaderIgnored(w: Writer, k: string, v: string)
    requires w.sent.Some?
    ensures Finish(SetHeader(w, k, v)) == Finish(w)
  {
  }

  predicate IsAscii(s: string) {
    forall i :: 0 <= i < |s| ==> s[i] as int < 128
  }

  /** The bytes of an ASCII string. */
  function Ascii(s: string): seq<Byte>
    requires IsAscii(s)
  {
    seq(|s|, i requires 0 <= i < |s| => s[i] as int)
  }

  const PlainText: string := "text/plain; charset=utf-8"

  /** `http.Error(w, text, code)`, given the bytes of `text` and its newline
      (`fmt.Fprintln`): a plain-text error page. On a writer that has already
      sent its status only the text is appended. */
  function Error(w: Writer, line: seq<Byte>, code: int): (r: Writer)
    ensures Finish(r).body == w.body + line
    ensures w.sent.None? ==> (Finish(r)
      == Response(code, w.header[ContentType := PlainText][ContentTypeOptions := "nosniff"], w.body + line))
    ensures w.sent.Some? ==> Finish(r) == Finish(w).(body := w.body + line)
  {
    var w1 := SetHeader(w, ContentType, PlainText);
    var w2 := SetHeader(w1, ContentTypeOptions, "nosniff");
    Write(WriteHeader(w2, code), line)
  }

  /** `http.StatusText(500)` and the text of `http.NotFound`, each with its newline. */
  const InternalServerErrorLine: seq<Byte> := Ascii("Internal Server Error\n")
  const NotFoundLine: seq<Byte> := Ascii("404 page not found\n")

  /** `write500(w)`: status 500 with the plain-text reason, unless a status
      was already sent, which then stays. */
  function Write500(w: Writer): (r: Writer)
    ensures Finish(r).body == w.body + InternalServerErrorLine
    ensures w.sent.None? ==> (Finish(r).status == StatusInternalServerError
      && Finish(r).header == w.header[ContentType := PlainText][ContentTypeOptions := "nosniff"])
    ensures w.sent.Some? ==> (Finish(r).status == w.sent.value.status
      && Finish(r).header == w.sent.value.header)
  {
    Error(w, InternalServerErrorLine, StatusInternalServerError)
  }

  /** `http.NotFound(w, r)`: status 404 with the plain-text "404 page not
      found", unless a status was already sent. */
  function NotFound(w: Writer): (r: Writer)
    ensures Finish(r).body == w.body + NotFoundLine
    ensures w.sent.None? ==> (Finish(r).status == StatusNotFound
      && Finish(r).header == w.header[ContentType := PlainText][ContentTypeOptions := "nosniff"])
    ensures w.sent.Some? ==> (Finish(r).status == w.sent.value.status
      && Finish(r).header == w.sent.value.header)
  {
    Error(w, NotFoundLine, StatusNotFound)
  }

  /** The writer's operations, for reasoning about sequences of calls. */
  datatype Op = SetHeaderOp(key: string, value: string) | WriteHeaderOp(code: int) | WriteOp(data: seq<Byte>)

  function Apply(w: Writer, op: Op): Writer {
    match op
    case SetHeaderOp(k, v) => SetHeader(w, k, v)
    case WriteHeaderOp(code) => WriteHeader(w, code)
    case WriteOp(data) => Write(w, data)
  }

  function Run(w: Writer, ops: seq<Op>): Writer
    decreases |ops|
  {
    if |ops| == 0 then w else Run(Apply(w, ops[0]), ops[1..])
  }

  /** First status wins: once a status is sent, no sequence of calls changes
      the status or the headers the client sees, and the body only grows. */
  lemma {:induction false} FirstStatusWins(w: Writer, ops: seq<Op>)
    requires w.sent.Some?
    ensures Run(w, ops).sent == w.sent
    ensures w.body <= Run(w, ops).body
    ensures Finish(Run(w, ops)).status == w.sent.value.status
    ensures Finish(Run(w, ops)).header == w.sent.value.header
    decreases |ops|
  {
    if |ops| > 0 {
      FirstStatusWins(Apply(w, ops[0]), ops[1..]);
    }
  }

  /** An independent account of what the client sees for a sequence of calls
      on a writer that has sent nothing yet: header sets accumulate until the
      first `WriteHeader(code)`, which fixes `code`, or the first `Write`, or
      the end of the handler, which both fix 200; the headers are those set
      up to that point. */
  function FirstSent(h: Header, ops: seq<Op>): Sent
    decreases |ops|
  {
    if |ops| == 0 then Sent(StatusOK, h)
    else match ops[0]
      case SetHeaderOp(k, v) => FirstSent(h[k := v], ops[1..])
      case WriteHeaderOp(code) => Sent(code, h)
      case WriteOp(_) => Sent(StatusOK, h)
  }

  /** The writer agrees with that account for every sequence of calls. */
  lemma {:induction false} FinishFirstSent(w: Writer, ops: seq<Op>)
    requires w.sent.None?
    ensures Finish(Run(w, ops)).status == FirstSent(w.header, ops).status
    ensures Finish(Run(w, ops)).header == FirstSent(w.header, ops).header
    decreases |ops|
  {
    if |ops| > 0 {
      match ops[0]
      case SetHeaderOp(k, v) =>
        FinishFirstSent(SetHeader(w, k, v), ops[1..]);
      case WriteHeaderOp(code) =>
        FirstStatusWins(WriteHeader(w, code), ops[1..]);
      case WriteOp(data) =>
        FirstStatusWins(Write(w, data), ops[1..]);
    }
  }

  /** Before the first status, the status the client sees is that of the first
      `WriteHeader` or `Write` (200), with the headers set up to that point. */
  lemma FirstWriteHeaderDecides(w: Writer, code: int, ops: seq<Op>)
    requires w.sent.None?
    ensures Finish(Run(WriteHeader(w, code), ops)).status == code
    ensures Finish(Run(WriteHeader(w, code), ops)).header == w.header
  {
    FirstStatusWins(WriteHeader(w, code), ops);
  }
}

=== FILE: listing.dfy ===
/** The listing view model: `toFInfo`, `toFInfos` and `toDInfo`. */
module Listing {
  import opened Wrappers
  import opened Size
  import opened Paths
  import opened FilePaths
  import opened Fs

  /** One row of the listing (`fInfo`). */
  datatype FInfo = FInfo(name: string, mode: string, modTime: string, size: string, path: string, isDir: bool)

  /** The enclosing directory (`dInfo`). */
  datatype DInfo = DInfo(name: string, path: string)

  /** The value handed to the template (`dirlist`); `None` is Go's nil. */
  datatype DirList = DirList(files: seq<Option<FInfo>>, dirInfo: Option<DInfo>)

  /** `toFInfo(entry, pwd)` with the served directory `base`. A row exists
      exactly when both `entry.Info()` and `filepath.Rel(base, pwd)` succeed;
      its path is that of the listed directory, so joining it to the base
      leads back to `pwd`. */
  function ToFInfo(entry: DirEntry, base: string, pwd: string): (r: Option<FInfo>)
    ensures r.None? <==> (!entry.info.Ok? || Rel(base, pwd).None?)
    ensures r.Some? ==> r.value.name == entry.name && r.value.isDir == entry.isDir
    ensures r.Some? ==> r.value.size == ByteCountIEC(entry.info.info.size)
    ensures r.Some? ==> r.value.mode == entry.info.info.mode && r.value.modTime == entry.info.info.modTime
    ensures r.Some? ==> Rel(base, pwd) == Some(r.value.path)
    ensures r.Some? ==> CleanString(JoinString(base, r.value.path)) == CleanString(pwd)
  {
    match entry.info
    case Ok(info) =>
      (match Rel(base, pwd)
       case None => None
       case Some(path) =>
         RelRoundTrip(base, pwd, path);
         Some(FInfo(entry.name, info.mode, info.modTime, ByteCountIEC(info.size), path, entry.isDir)))
    case _ => None
  }

  /** `toFInfos`: one result per entry, in enumeration order; entries whose
      row cannot be built stay in place as `None`. */
  function ToFInfos(entries: seq<DirEntry>, base: string, pwd: string): (rows: seq<Option<FInfo>>)
    ensures |rows| == |entries|
    ensures forall i :: 0 <= i < |entries| ==> rows[i] == ToFInfo(entries[i], base, pwd)
  {
    Rows(entries, e => ToFInfo(e, base, pwd))
  }

  /** The results of `row` on each entry, built in enumeration order. */
  function Rows(entries: seq<DirEntry>, row: DirEntry -> Option<FInfo>): (rows: seq<Option<FInfo>>)
    ensures |rows| == |entries|
    ensures forall i :: 0 <= i < |entries| ==> rows[i] == row(entries[i])
  {
    if |entries| == 0 then []
    else Rows(entries[..|entries| - 1], row) + [row(entries[|entries| - 1])]
  }

  /** `toDInfo(_, pwd)`: nil when `Rel(base, pwd)` fails. At the base itself
      the name is the base's last element and the parent path is ".". */
  function ToDInfo(base: string, pwd: string): (r: Option<DInfo>)
    ensures r.None? <==> Rel(base, pwd).None?
    ensures CleanString(base) == CleanString(pwd) ==> r == Some(DInfo(Base(base), "."))
  {
    RelDot(base, pwd);
    match Rel(base, pwd)
    case None => None
    case Some(rel) =>
      DInfoOf(base, rel)
  }

  /** The record for a successful `Rel` result `rel`. */
  function DInfoOf(base: string, rel: string): (r: Option<DInfo>)
    ensures r.Some?
    ensures rel == "." ==> r == Some(DInfo(Base(base), "."))
  {
    if rel == "." then
      DirOfDot(rel);
      Some(DInfo(Base(base), Dir(rel)))
    else
      Some(DInfo(JoinString(Base(base), rel), Dir(rel)))
  }

  /** The rows of a listing line up with the entries: a row is missing exactly
      where the entry's `Info()` failed (or `Rel` failed for all), and every
      present row carries the same directory path. */
  lemma ListingAligned(entries: seq<DirEntry>, base: string, pwd: string)
    ensures var rows := ToFInfos(entries, base, pwd);
      && |rows| == |entries|
      && (forall i :: 0 <= i < |rows| ==> (rows[i].None? <==> (!entries[i].info.Ok? || Rel(base, pwd).None?)))
      && (forall i, j :: 0 <= i < |rows| && 0 <= j < |rows| && rows[i].Some? && rows[j].Some? ==>
            rows[i].value.path == rows[j].value.path)
  {
  }

  /** Below the base, by relative elements `s`, the enclosing directory is named
      by the base's last element joined with `s`, and its parent path is `s`
      without its last element ("." if `s` has one element). */
  lemma DInfoBelow(base: string, pwd: string, s: seq<Segment>)
    requires |s| >= 1 && CleanSegs(false, s) && AllNoSlash(s)
    requires Clean(Parse(pwd)) == Path(Clean(Parse(base)).rooted, Clean(Parse(base)).segs + s)
    ensures ToDInfo(base, pwd)
         == Some(DInfo(JoinString(Base(base), JoinSegs(s)), Render(Path(false, s[..|s| - 1]))))
  {
    var rel := JoinSegs(s);
    RelBelow(base, pwd, s);
    assert rel != "." by {
      JoinSegsPrefix(s);
      assert s[0] != "." && |s[0]| > 0;
    }
    assert ToDInfo(base, pwd) == DInfoOf(base, rel);
    DirOfSegs(s);
  }
}

=== FILE: paths.dfy ===
/** Go's `path` package as the handler uses it: `Clean` (the lexical rules of
    "Lexical File Names in Plan 9") and `Join`. A slash-separated string is
    read as a `Path`: a rooted flag and the list of segments between slashes. */
module Paths {

  type Segment = string

  datatype Path = Path(rooted: bool, segs: seq<Segment>)

  predicate NoSlash(s: string) {
    forall k :: 0 <= k < |s| ==> s[k] != '/'
  }

  predicate AllNoSlash(segs: seq<Segment>) {
    forall i :: 0 <= i < |segs| ==> NoSlash(segs[i])
  }

  predicate NoDotDot(segs: seq<Segment>) {
    forall i :: 0 <= i < |segs| ==> segs[i] != ".."
  }

  /** `strings.Split(s, "/")`: the pieces between slashes, always at least one. */
  function Split(s: string): (segs: seq<Segment>)
    ensures |segs| >= 1
  {
    if |s| == 0 then [""]
    else
      var rest := Split(s[1..]);
      if s[0] == '/' then [""] + rest else [[s[0]] + rest[0]] + rest[1..]
  }

  /** `strings.Join(segs, "/")`. */
  function JoinSegs(segs: seq<Segment>): string {
    if |segs| == 0 then ""
    else if |segs| == 1 then segs[0]
    else segs[0] + "/" + JoinSegs(segs[1..])
  }

  /** One segment of the Plan 9 rules: drop empty and "." names, let ".." eat
      the previous real name, drop ".." at the root, keep it in front of a
      relative path. */
  function Step(rooted: bool, out: seq<Segment>, seg: Segment): seq<Segment> {
    if seg == "" || seg == "." then out
    else if seg == ".." then
      if |out| > 0 && out[|out| - 1] != ".." then out[..|out| - 1]
      else if rooted then out
      else out + [".."]
    else out + [seg]
  }

  function Fold(rooted: bool, out: seq<Segment>, segs: seq<Segment>): seq<Segment>
    decreases |segs|
  {
    if |segs| == 0 then out else Fold(rooted, Step(rooted, out, segs[0]), segs[1..])
  }

  /** The shape `Clean` produces: no empty or "." names, ".." only as a leading
      run, and no ".." at all under the root. */
  predicate CleanSegs(rooted: bool, segs: seq<Segment>) {
    && (forall i :: 0 <= i < |segs| ==> segs[i] != "" && segs[i] != ".")
    && (forall i, j :: 0 <= i < j < |segs| && segs[j] == ".." ==> segs[i] == "..")
    && (rooted ==> NoDotDot(segs))
  }

  predicate IsClean(p: Path) {
    CleanSegs(p.rooted, p.segs) && AllNoSlash(p.segs)
  }

  function Clean(p: Path): (c: Path)
    requires AllNoSlash(p.segs)
    ensures IsClean(c)
    ensures c.rooted == p.rooted
  {
    FoldClean(p.rooted, [], p.segs);
    Path(p.rooted, Fold(p.rooted, [], p.segs))
  }

  /** Reading a string as a path: a leading slash roots it. */
  function Parse(s: string): (p: Path)
    ensures AllNoSlash(p.segs)
  {
    if |s| > 0 && s[0] == '/' then
      SplitNoSlashes(s[1..]);
      Path(true, Split(s[1..]))
    else
      SplitNoSlashes(s);
      Path(false, Split(s))
  }

  /** Writing a path back: "/" for the bare root, "." for the empty relative path. */
  function Render(p: Path): string {
    if p.rooted then "/" + JoinSegs(p.segs)
    else if |p.segs| == 0 then "."
    else JoinSegs(p.segs)
  }

  /** `path.Clean`. */
  function CleanString(s: string): (c: string)
    ensures |c| > 0
    ensures IsClean(Parse(c)) || Parse(c).segs == ["."] || Parse(c).segs == [""]
  {
    var p := Clean(Parse(s));
    RenderNonEmpty(p);
    ParseRenderShape(p);
    Render(p)
  }

  /** `path.Join` of two elements: empty elements are skipped, the rest are
      joined with "/" and cleaned; two empty elements give "". */
  function JoinString(a: string, b: string): (r: string)
    ensures r == "" <==> a == "" && b == ""
    ensures r != "" ==> CleanString(r) == r
  {
    if a != "" then
      CleanStringIdempotent(a + "/" + b);
      CleanString(a + "/" + b)
    else if b != "" then
      CleanStringIdempotent(b);
      CleanString(b)
    else ""
  }

  // ---------------------------------------------------------------------------
  // Splitting and joining

  /** No piece contains a slash. */
  lemma {:induction false} SplitNoSlashes(s: string)
    ensures AllNoSlash(Split(s))
  {
    if |s| > 0 {
      SplitNoSlashes(s[1..]);
      var rest := Split(s[1..]);
      if s[0] != '/' {
        assert NoSlash([s[0]] + rest[0]);
        assert Split(s) == [[s[0]] + rest[0]] + rest[1..];
      }
    }
  }

  lemma {:induction false} SplitNoSlash(x: string)
    requires NoSlash(x)
    ensures Split(x) == [x]
  {
    if |x| > 0 {
      SplitNoSlash(x[1..]);
      assert [x[0]] + x[1..] == x;
    }
  }

  lemma {:induction false} SplitConcat(x: string, y: string)
    ensures Split(x + "/" + y) == Split(x) + Split(y)
    decreases |x|
  {
    var s := x + "/" + y;
    if |x| == 0 {
      assert s == "/" + y;
      assert s[1..] == y;
    } else {
      assert s[1..] == x[1..] + "/" + y;
      SplitConcat(x[1..], y);
      SplitCons(s, x, Split(x[1..]), Split(y));
    }
  }

  /** One unfolding of `Split` on strings with the same first character. */
  lemma SplitCons(s: string, x: string, a: seq<Segment>, b: seq<Segment>)
    requires |x| > 0 && |s| > 0 && s[0] == x[0]
    requires Split(s[1..]) == a + b && Split(x[1..]) == a
    ensures Split(s) == Split(x) + b
  {
    if x[0] == '/' {
      SplitConsSlash(s, x, a, b);
    } else {
      SplitConsChar(s, x, a, b);
    }
  }

  lemma SplitConsSlash(s: string, x: string, a: seq<Segment>, b: seq<Segment>)
    requires |x| > 0 && |s| > 0 && s[0] == x[0] == '/'
    requires Split(s[1..]) == a + b && Split(x[1..]) == a
    ensures Split(s) == Split(x) + b
  {
    SplitUnfoldSlash(s);
    SplitUnfoldSlash(x);
    ConsEmpty(Split(s), Split(x), a, b);
  }

  lemma ConsEmpty(hs: seq<Segment>, hx: seq<Segment>, a: seq<Segment>, b: seq<Segment>)
    requires hs == [""] + (a + b) && hx == [""] + a
    ensures hs == hx + b
  {
  }

  lemma SplitConsChar(s: string, x: string, a: seq<Segment>, b: seq<Segment>)
    requires |x| > 0 && |s| > 0 && s[0] == x[0] && x[0] != '/'
    requires Split(s[1..]) == a + b && Split(x[1..]) == a
    ensures Split(s) == Split(x) + b
  {
    SplitUnfoldChar(s);
    SplitUnfoldChar(x);
    ConsHead(Split(s), Split(x), x[0], a, b);
  }

  lemma SplitUnfoldSlash(s: string)
    requires |s| > 0 && s[0] == '/'
    ensures Split(s) == [""] + Split(s[1..])
  {
  }

  lemma SplitUnfoldChar(s: string)
    requires |s| > 0 && s[0] != '/'
    ensures Split(s) == [[s[0]] + Split(s[1..])[0]] + Split(s[1..])[1..]
  {
  }

  lemma ConsHead(hs: seq<Segment>, hx: seq<Segment>, c: char, a: seq<Segment>, b: seq<Segment>)
    requires |a| >= 1
    requires hs == [[c] + (a + b)[0]] + (a + b)[1..]
    requires hx == [[c] + a[0]] + a[1..]
    ensures hs == hx + b
  {
    assert (a + b)[0] == a[0];
    assert (a + b)[1..] == a[1..] + b;
  }

  lemma {:induction false} SplitJoin(segs: seq<Segment>)
    requires |segs| >= 1 && AllNoSlash(segs)
    ensures Split(JoinSegs(segs)) == segs
  {
    if |segs| == 1 {
      SplitNoSlash(segs[0]);
    } else {
      SplitJoin(segs[1..]);
      SplitConcat(segs[0], JoinSegs(segs[1..]));
      SplitNoSlash(segs[0]);
    }
  }

  lemma JoinSegsHead(segs: seq<Segment>)
    requires |segs| >= 1 && |segs[0]| > 0
    ensures |JoinSegs(segs)| > 0 && JoinSegs(segs)[0] == segs[0][0]
  {
  }

  lemma RenderNonEmpty(p: Path)
    requires IsClean(p)
    ensures |Render(p)| > 0
  {
    if !p.rooted && |p.segs| > 0 {
      JoinSegsHead(p.segs);
    }
  }

  /** The text of a clean path starts with '/' exactly when the path is rooted. */
  lemma RenderRooted(p: Path)
    requires IsClean(p)
    ensures |Render(p)| > 0 && (Render(p)[0] == '/' <==> p.rooted)
  {
    if !p.rooted && |p.segs| > 0 {
      JoinSegsHead(p.segs);
      assert p.segs[0] != "" && NoSlash(p.segs[0]);
    }
  }

  /** A clean path survives being written out and read back, up to the "."
      and "/" spellings of the empty path. */
  lemma ParseRenderShape(p: Path)
    requires IsClean(p)
    ensures Parse(Render(p)) == p || (|p.segs| == 0 && Parse(Render(p)).segs in {["."], [""]})
  {
    if p.rooted {
      assert Render(p)[1..] == JoinSegs(p.segs);
      if |p.segs| > 0 {
        SplitJoin(p.segs);
      }
    } else if |p.segs| > 0 {
      assert p.segs[0] != "" && NoSlash(p.segs[0]);
      JoinSegsHead(p.segs);
      assert Render(p) == JoinSegs(p.segs);
      assert Render(p)[0] != '/';
      SplitJoin(p.segs);
      assert Parse(Render(p)) == Path(false, Split(JoinSegs(p.segs)));
    } else {
      SplitNoSlash(".");
    }
  }

  // ---------------------------------------------------------------------------
  // The Plan 9 fold

  lemma StepClean(rooted: bool, out: seq<Segment>, seg: Segment)
    requires CleanSegs(rooted, out) && AllNoSlash(out) && NoSlash(seg)
    ensures CleanSegs(rooted, Step(rooted, out, seg))
    ensures AllNoSlash(Step(rooted, out, seg))
  {
  }

  lemma {:induction false} FoldClean(rooted: bool, out: seq<Segment>, segs: seq<Segment>)
    requires CleanSegs(rooted, out) && AllNoSlash(out) && AllNoSlash(segs)
    ensures CleanSegs(rooted, Fold(rooted, out, segs))
    ensures AllNoSlash(Fold(rooted, out, segs))
    decreases |segs|
  {
    if |segs| > 0 {
      StepClean(rooted, out, segs[0]);
      FoldClean(rooted, Step(rooted, out, segs[0]), segs[1..]);
    }
  }

  /** Folding over a concatenation is folding twice. */
  lemma {:induction false} FoldConcat(rooted: bool, out: seq<Segment>, a: seq<Segment>, b: seq<Segment>)
    ensures Fold(rooted, out, a + b) == Fold(rooted, Fold(rooted, out, a), b)
    decreases |a|
  {
    if |a| > 0 {
      assert (a + b)[0] == a[0];
      assert (a + b)[1..] == a[1..] + b;
      FoldConcat(rooted, Step(rooted, out, a[0]), a[1..], b);
    } else {
      assert a + b == b;
    }
  }

  /** Already-clean segments pass through the fold unchanged. */
  lemma {:induction false} FoldIdentity(rooted: bool, out: seq<Segment>, segs: seq<Segment>)
    requires CleanSegs(rooted, out + segs)
    ensures Fold(rooted, out, segs) == out + segs
    decreases |segs|
  {
    if |segs| > 0 {
      var out' := out + [segs[0]];
      assert out + segs == out' + segs[1..];
      if segs[0] == ".." {
        assert (out + segs)[|out|] == "..";
        assert !rooted;
        if |out| > 0 {
          assert out[|out| - 1] == (out + segs)[|out| - 1] == "..";
        }
      } else {
        assert segs[0] == (out + segs)[|out|];
        assert segs[0] != "" && segs[0] != ".";
      }
      assert Step(rooted, out, segs[0]) == out';
      FoldIdentity(rooted, out', segs[1..]);
    } else {
      assert out + segs == out;
    }
  }

  /** Without "..", the fold only ever appends: the accumulated prefix stays. */
  lemma {:induction false} FoldExtends(rooted: bool, out: seq<Segment>, segs: seq<Segment>)
    requires NoDotDot(segs)
    ensures out <= Fold(rooted, out, segs)
    decreases |segs|
  {
    if |segs| > 0 {
      FoldExtends(rooted, Step(rooted, out, segs[0]), segs[1..]);
    }
  }

  // ---------------------------------------------------------------------------
  // Properties of Clean and Join

  /** Cleaning a clean path changes nothing. */
  lemma CleanOfClean(p: Path)
    requires IsClean(p)
    ensures Clean(p) == p
  {
    FoldIdentity(p.rooted, [], p.segs);
    assert [] + p.segs == p.segs;
  }

  /** Reading back a cleaned string and cleaning gives the same path. */
  lemma CleanParseRender(p: Path)
    requires IsClean(p)
    ensures Clean(Parse(Render(p))) == p
  {
    ParseRenderShape(p);
    if Parse(Render(p)) == p {
      CleanOfClean(p);
    }
  }

  /** `path.Clean` is idempotent. */
  lemma CleanStringIdempotent(s: string)
    ensures CleanString(CleanString(s)) == CleanString(s)
  {
    CleanParseRender(Clean(Parse(s)));
  }

  /** Reading back the text of `path.Clean(s)` and cleaning it gives the clean
      form of `s` itself. */
  lemma CleanStringShape(s: string)
    ensures Clean(Parse(CleanString(s))) == Clean(Parse(s))
  {
    CleanParseRender(Clean(Parse(s)));
  }

  /** Cleaning a prefix first does not change the clean form of the whole. */
  lemma CleanPrefix(rooted: bool, a: seq<Segment>, b: seq<Segment>)
    requires AllNoSlash(a) && AllNoSlash(b)
    ensures Fold(rooted, [], a + b) == Fold(rooted, [], Fold(rooted, [], a) + b)
  {
    var c := Fold(rooted, [], a);
    FoldClean(rooted, [], a);
    FoldConcat(rooted, [], a, b);
    FoldConcat(rooted, [], c, b);
    FoldIdentity(rooted, [], c);
    assert [] + c == c;
  }

  /** Reading `a/b` is reading `a` and appending the pieces of `b`. */
  lemma ParseConcat(a: string, b: string)
    requires a != ""
    ensures Parse(a + "/" + b) == Path(Parse(a).rooted, Parse(a).segs + Split(b))
  {
    if a[0] == '/' {
      assert (a + "/" + b)[1..] == a[1..] + "/" + b;
      SplitConcat(a[1..], b);
    } else {
      SplitConcat(a, b);
    }
  }

  /** The clean form of `path.Join(a, b)`, as a path: the clean form of `a`
      extended by the pieces of `b` and cleaned again. (With `a` empty this
      holds when `b` is a non-empty relative path.) */
  lemma JoinClean(a: string, b: string)
    requires a != "" || (b != "" && b[0] != '/')
    ensures Clean(Parse(JoinString(a, b)))
         == Path(Parse(a).rooted, Fold(Parse(a).rooted, Clean(Parse(a)).segs, Split(b)))
  {
    var pa := Parse(a);
    if a != "" {
      ParseConcat(a, b);
      CleanParseRender(Clean(Parse(a + "/" + b)));
      FoldConcat(pa.rooted, [], pa.segs, Split(b));
    } else {
      assert pa == Path(false, [""]);
      assert Fold(false, [], pa.segs) == [];
      CleanParseRender(Clean(Parse(b)));
    }
  }

  /** A plain name: one segment that `Clean` keeps as it is. */
  predicate PlainName(x: string) {
    x != "" && x != "." && x != ".." && NoSlash(x)
  }

  /** Joining a plain name onto any path appends exactly that name to the
      path's clean form; the joined text is already clean. */
  lemma JoinChild(a: string, name: string)
    requires PlainName(name)
    ensures CleanString(JoinString(a, name)) == JoinString(a, name)
    ensures Clean(Parse(JoinString(a, name)))
         == Path(Clean(Parse(a)).rooted, Clean(Parse(a)).segs + [name])
  {
    JoinClean(a, name);
    SplitNoSlash(name);
    assert Fold(Parse(a).rooted, Clean(Parse(a)).segs, [name]) == Clean(Parse(a)).segs + [name];
  }

  // ---------------------------------------------------------------------------
  // The candidate path of a request

  /** `path.Clean(path.Join(base, urlPath))`. */
  function Candidate(base: string, urlPath: string): (r: string)
    ensures |r| > 0 && CleanString(r) == r
    ensures base != "" || urlPath != "" ==> r == JoinString(base, urlPath)
  {
    CleanStringIdempotent(JoinString(base, urlPath));
    CleanString(JoinString(base, urlPath))
  }

  /** The candidate is already clean: cleaning it again changes nothing, it is
      never empty, and its clean form is that of `base + "/" + urlPath`. */
  lemma CandidateIsClean(base: string, urlPath: string)
    requires base != ""
    ensures CleanString(Candidate(base, urlPath)) == Candidate(base, urlPath)
    ensures Candidate(base, urlPath) == JoinString(base, urlPath)
    ensures |Candidate(base, urlPath)| > 0
    ensures Clean(Parse(Candidate(base, urlPath))) == Clean(Parse(base + "/" + urlPath))
  {
    CleanStringIdempotent(base + "/" + urlPath);
    CleanStringShape(base + "/" + urlPath);
  }

  /** Without any ".." piece in the request path, the candidate lies under the
      clean form of the base: same rootedness, and the base's segments first. */
  lemma CandidateExtendsBase(base: string, urlPath: string)
    requires base != ""
    requires NoDotDot(Split(urlPath))
    ensures Clean(Parse(Candidate(base, urlPath))).rooted == Clean(Parse(base)).rooted
    ensures Clean(Parse(base)).segs <= Clean(Parse(Candidate(base, urlPath))).segs
  {
    CleanStringShape(JoinString(base, urlPath));
    JoinClean(base, urlPath);
    FoldExtends(Parse(base).rooted, Clean(Parse(base)).segs, Split(urlPath));
  }

  /** The string `path.Join` cleans: the non-empty elements joined by "/". */
  function Joined(a: string, b: string): string {
    if a != "" then a + "/" + b else b
  }

  lemma JoinStringJoined(a: string, b: string)
    requires a != "" || b != ""
    ensures JoinString(a, b) == CleanString(Joined(a, b))
    ensures Joined(a, b) != ""
  {
  }

  /** Joining a name onto the candidate of `u` and cleaning gives the candidate
      of `u + "/" + name`: probing `<dir>/name` reaches the same path as
      requesting it directly. */
  lemma CandidateChild(base: string, u: string, name: string)
    requires base != "" || u != ""
    ensures Candidate(base, u + "/" + name) == CleanString(JoinString(Candidate(base, u), name))
  {
    var x := Joined(base, u);
    JoinStringJoined(base, u);
    JoinStringJoined(base, u + "/" + name);
    assert Joined(base, u + "/" + name) == x + "/" + name;
    var c := Clean(Parse(x));
    SplitNoSlashes(name);
    // The direct request.
    CleanStringIdempotent(x + "/" + name);
    ParseConcat(x, name);
    CleanPrefix(c.rooted, Parse(x).segs, Split(name));
    // The probe from the candidate.
    CleanStringIdempotent(x);
    var cp := CleanString(x);
    CleanStringShape(x);
    assert Clean(Parse(cp)) == c;
    ParseConcat(cp, name);
    CleanPrefix(c.rooted, Parse(cp).segs, Split(name));
    CleanStringIdempotent(cp + "/" + name);
  }

  /** With "..", join-then-clean does not confine the request: under a rooted
      base "/a", the request "/../b" resolves to "/b", outside "/a". */
  lemma EscapeFromRootedBase(a: string, b: string)
    requires PlainName(a) && PlainName(b) && a != b
    ensures Candidate("/" + a, "/../" + b) == "/" + b
    ensures !(Clean(Parse("/" + a)).segs <= Clean(Parse(Candidate("/" + a, "/../" + b))).segs)
  {
    SplitNoSlash(a);
    SplitNoSlash("..");
    SplitNoSlash(b);
    SplitConcat("..", b);
    assert ".." + "/" + b == "../" + b;
    SplitConcat("", "../" + b);
    assert "" + "/" + ("../" + b) == "/../" + b;
    assert Split("/../" + b) == ["", "..", b];
    ParseConcat("/" + a, "/../" + b);
    assert ("/" + a)[1..] == a;
    assert Parse("/" + a) == Path(true, [a]);
    var segs := [a, "", "..", b];
    assert Parse("/" + a + "/" + ("/../" + b)) == Path(true, segs);
    assert Step(true, [], a) == [a];
    assert Fold(true, [], segs) == Fold(true, [a], segs[1..]);
    assert Fold(true, [a], segs[1..]) == Fold(true, [a], segs[2..]);
    assert Fold(true, [a], segs[2..]) == Fold(true, [], segs[3..]);
    assert Step(true, [], b) == [b];
    assert Fold(true, [], segs[3..]) == [b];
    assert Fold(true, [], [a]) == [a];
    CandidateIsClean("/" + a, "/../" + b);
    CleanParseRender(Path(true, [b]));
    assert Render(Path(true, [b])) == "/" + b;
    assert Clean(Parse(Candidate("/" + a, "/../" + b))) == Path(true, [b]);
    assert [a][0] != [b][0];
  }

  /** The instance "/srv" and "/../etc": the candidate is "/etc". */
  lemma EscapeFromSrv()
    ensures Candidate("/srv", "/../etc") == "/etc"
  {
    EscapeFromRootedBase("srv", "etc");
    assert "/" + "srv" == "/srv";
    assert "/../" + "etc" == "/../etc";
    assert "/" + "etc" == "/etc";
  }

  /** With the default base ".", a ".." request cleans to a path above it:
      "/../b" resolves to "../b". */
  lemma EscapeFromDotBase(b: string)
    requires PlainName(b)
    ensures Candidate(".", "/../" + b) == "../" + b
    ensures Clean(Parse(Candidate(".", "/../" + b))) == Path(false, ["..", b])
  {
    DotJoinedPath(b);
    CandidateIsClean(".", "/../" + b);
    CleanParseRender(Path(false, ["..", b]));
    assert JoinSegs(["..", b]) == "../" + b;
  }

  lemma DotJoinedPath(b: string)
    requires PlainName(b)
    ensures Clean(Parse("." + "/" + ("/../" + b))) == Path(false, ["..", b])
  {
    SplitNoSlash(".");
    SplitNoSlash("..");
    SplitNoSlash(b);
    SplitConcat("..", b);
    assert ".." + "/" + b == "../" + b;
    SplitConcat("", "../" + b);
    assert "" + "/" + ("../" + b) == "/../" + b;
    assert Split("/../" + b) == ["", "..", b];
    ParseConcat(".", "/../" + b);
    var segs := [".", "", "..", b];
    assert Parse("." + "/" + ("/../" + b)) == Path(false, segs);
    assert Fold(false, [], segs) == Fold(false, [], segs[2..]);
    assert Step(false, [], "..") == [".."];
    assert Fold(false, [], segs[2..]) == Fold(false, [".."], segs[3..]);
    assert Step(false, [".."], b) == ["..", b];
    assert Fold(false, [".."], segs[3..]) == ["..", b];
  }
}

=== FILE: size.dfy ===
/** `ByteCountIEC` of server/handler.go: a byte count rendered in IEC binary units. */
module Size {
  import opened Decimal

  const Unit: int := 1024
  const MinInt64: int := -0x8000_0000_0000_0000
  const MaxInt64: int := 0x7fff_ffff_ffff_ffff
  /** The unit letters, indexed by the loop's exponent. */
  const UnitLetters: string := "KMGTPE"

  predicate IsInt64(b: int) {
    MinInt64 <= b <= MaxInt64
  }

  /** Go's `int64`, the type of a file size. */
  type Int64 = b: int | IsInt64(b)

  function Pow(e: nat): (p: int)
    ensures p >= 1
  {
    if e == 0 then 1 else Unit * Pow(e - 1)
  }

  lemma {:induction false} PowMonotone(d: nat, e: nat)
    requires d <= e
    ensures Pow(d) <= Pow(e)
  {
    if d < e {
      PowMonotone(d, e - 1);
    }
  }

  /** A product with a positive factor strictly between -d and d has a zero cofactor. */
  lemma MulSmall(d: int, x: int)
    requires d > 0 && -d < d * x < d
    ensures x == 0
  {
  }

  /** Quotient and remainder are unique. */
  lemma DivUnique(b: int, m: int, q: int, s: int)
    requires m > 0 && 0 <= s < m && b == m * q + s
    ensures b / m == q
  {
    assert b == m * (b / m) + b % m;
    assert m * (q - b / m) == b % m - s;
    MulSmall(m, q - b / m);
  }

  /** Expanding d * (k * q + r). */
  lemma Expand(d: int, k: int, q: int, r: int)
    ensures d * (k * q + r) == (d * k) * q + d * r
  {
  }

  /** d * r < d * k when r < k. */
  lemma MulStrict(d: int, r: int, k: int)
    requires d > 0 && 0 <= r < k
    ensures d * r + d <= d * k
  {
    MulAtLeast(d, k - r);
    assert d * k - d * r == d * (k - r);
  }

  lemma {:induction false} MulAtLeast(d: int, x: int)
    requires d >= 0 && x >= 1
    ensures d * x >= d
  {
    if x > 1 {
      MulAtLeast(d, x - 1);
      assert d * x == d * (x - 1) + d;
    }
  }

  /** Integer division by a product is repeated division (non-negative dividend). */
  lemma DivDiv(b: int, d: int, k: int)
    requires b >= 0 && d > 0 && k > 0
    ensures (b / d) / k == b / (d * k)
  {
    var q, r1 := b / d, b % d;
    var q2, r2 := q / k, q % k;
    Expand(d, k, q2, r2);
    MulStrict(d, r2, k);
    DivUnique(b, d * k, q2, d * r2 + r1);
  }

  /** Quotient bounds, read back as bounds on the dividend. */
  lemma QuotientBounds(b: int, d: int)
    requires b >= 0 && d > 0
    ensures b / d >= Unit ==> d * Unit <= b
    ensures b / d < Unit ==> b < d * Unit
  {
    var q := b / d;
    assert b == d * q + b % d;
    if q >= Unit {
      assert d * q >= d * Unit;
    } else {
      assert d * q <= d * (Unit - 1);
    }
  }

  /** The unit loop of `ByteCountIEC`, one iteration per call: while the
      quotient `n` is at least 1024 it is divided by 1024, the divisor is
      multiplied by 1024 and the exponent goes up by one. The running divisor
      never exceeds `b`, so the 64-bit multiplication cannot overflow. */
  function Scale(b: int, n: int, div: int, exp: nat): (r: (int, nat))
    requires Unit <= b
    requires div == Pow(exp + 1) && div <= b && n == b / div
    ensures r.0 == Pow(r.1 + 1)
    ensures r.0 <= b < r.0 * Unit
    ensures exp <= r.1
    decreases n
  {
    QuotientBounds(b, div);
    if n >= Unit then
      DivDiv(b, div, Unit);
      Scale(b, n / Unit, div * Unit, exp + 1)
    else
      (div, exp)
  }

  /** Divisor and exponent chosen for `b >= 1024`: the power of 1024 with
      `div <= b < div * 1024`, and an exponent that indexes "KMGTPE". */
  function UnitExponent(b: int): (r: (int, nat))
    requires Unit <= b <= MaxInt64
    ensures r.0 == Pow(r.1 + 1)
    ensures r.0 <= b < r.0 * Unit
    ensures r.1 < |UnitLetters|
  {
    var r := Scale(b, b / Unit, Unit, 0);
    ExponentBound(r.1);
    r
  }

  /** A power 1024^(e+1) that fits in an int64 has e <= 5, since 1024^7 = 2^70. */
  lemma ExponentBound(e: nat)
    ensures Pow(e + 1) <= MaxInt64 ==> e < |UnitLetters|
  {
    if e >= |UnitLetters| {
      PowMonotone(7, e + 1);
    }
  }

  /** `%.1f` of b/div as a count of tenths, rounded to nearest with ties to even.
      This is the exact decimal rounding of the quotient; it equals the Go code's
      float64 result whenever `b` is exactly representable (below 2^53). */
  function Tenths(b: nat, div: int): (t: nat)
    requires div > 0
    ensures -div <= 2 * (10 * b - t * div) <= div
    ensures 2 * (10 * b - t * div) == div ==> t % 2 == 0
    ensures 2 * (10 * b - t * div) == -div ==> t % 2 == 0
  {
    RoundHalfEven(10 * b, div)
  }

  /** x/div rounded to the nearest integer, ties to even. */
  function RoundHalfEven(x: nat, div: int): (t: nat)
    requires div > 0
    ensures -div <= 2 * (x - t * div) <= div
    ensures 2 * (x - t * div) == div ==> t % 2 == 0
    ensures 2 * (x - t * div) == -div ==> t % 2 == 0
  {
    var q := x / div;
    var m := x % div;
    TenthsBound(x, div, q, m);
    if 2 * m > div || (2 * m == div && q % 2 == 1) then
      RoundedUp(x, div, q, m);
      q + 1
    else
      RoundedDown(x, div, q, m);
      q
  }

  /** Round-half-to-even is determined by its two properties: at most one
      integer lies within half a unit of x/div and, at an exact tie, is even. */
  lemma RoundUnique(x: int, div: int, t: int, u: int)
    requires div > 0
    requires -div <= 2 * (x - t * div) <= div
    requires 2 * (x - t * div) == div ==> t % 2 == 0
    requires 2 * (x - t * div) == -div ==> t % 2 == 0
    requires -div <= 2 * (x - u * div) <= div
    requires 2 * (x - u * div) == div ==> u % 2 == 0
    requires 2 * (x - u * div) == -div ==> u % 2 == 0
    ensures t == u
  {
    var a, c := x - t * div, x - u * div;
    assert a - c == div * (u - t);
    GapUnit(div, u - t, a - c);
  }

  /** A multiple g = div*k with |g| <= div has |k| <= 1, and |k| = 1 only when
      |g| = div. */
  lemma GapUnit(div: int, k: int, g: int)
    requires div > 0 && g == div * k && -div <= g <= div
    ensures -1 <= k <= 1
    ensures k == 1 ==> g == div
    ensures k == -1 ==> g == -div
  {
    MulCompare(div, k, 2);
    MulCompare(div, -2, k);
  }

  lemma RoundedUp(x: int, div: int, q: int, m: int)
    requires div > 0 && x - (q + 1) * div == m - div && 0 <= m < div
    requires 2 * m > div || (2 * m == div && q % 2 == 1)
    ensures -div <= 2 * (x - (q + 1) * div) <= div
    ensures 2 * (x - (q + 1) * div) == div ==> (q + 1) % 2 == 0
    ensures 2 * (x - (q + 1) * div) == -div ==> (q + 1) % 2 == 0
  {
  }

  lemma RoundedDown(x: int, div: int, q: int, m: int)
    requires div > 0 && x - q * div == m && 0 <= m < div
    requires !(2 * m > div || (2 * m == div && q % 2 == 1))
    ensures -div <= 2 * (x - q * div) <= div
    ensures 2 * (x - q * div) == div ==> q % 2 == 0
    ensures 2 * (x - q * div) == -div ==> q % 2 == 0
  {
  }

  lemma TenthsBound(x: int, div: int, q: int, m: int)
    requires div > 0 && q == x / div && m == x % div
    ensures x - q * div == m && 0 <= m < div
    ensures x - (q + 1) * div == m - div
  {
    assert (q + 1) * div == q * div + div;
  }

  /** The rendering of a size with one decimal place and a unit letter. */
  function Scaled(t: nat, letter: char): (s: string)
    ensures |s| >= 7 && s[|s| - 6] == '.' && s[|s| - 4] == ' '
    ensures s[|s| - 3] == letter && s[|s| - 2..] == "iB"
    ensures AllDigits(s[..|s| - 6]) && IsDigit(s[|s| - 5])
    ensures ParseDigits(s[..|s| - 6]) * 10 + DigitValue(s[|s| - 5]) == t
  {
    var whole := Digits(t / 10);
    var s := whole + "." + [DigitChar(t % 10)] + " " + [letter] + "iB";
    assert s[..|s| - 6] == whole;
    ParseDigitsOfDigits(t / 10);
    s
  }

  /** The size text ends in " B" exactly for counts below one KiB; every
      other count ends in a unit letter from "KMGTPE" followed by "iB". */
  function ByteCountIEC(b: int): (s: string)
    requires IsInt64(b)
    ensures |s| >= 3
    ensures s[|s| - 2..] == " B" <==> b < Unit
    ensures b >= Unit ==> s[|s| - 3] in UnitLetters && s[|s| - 2..] == "iB"
  {
    if b < Unit then
      FormatInt(b) + " B"
    else
      var (div, exp) := UnitExponent(b);
      Scaled(Tenths(b, div), UnitLetters[exp])
  }

  /** Below one KiB the count is printed exactly, and reading the numeral back
      gives the count. */
  lemma ByteCountSmall(b: int)
    requires 0 <= b < Unit
    ensures ByteCountIEC(b) == Digits(b) + " B"
    ensures ParseDigits(ByteCountIEC(b)[..|ByteCountIEC(b)| - 2]) == b
  {
    var s := ByteCountIEC(b);
    assert s[..|s| - 2] == Digits(b);
    ParseDigitsOfDigits(b);
  }

  /** From one KiB up, the string is `<t/10>.<t%10> <X>iB` where X is the letter
      of the only power 1024^(e+1) with 1024^(e+1) <= b < 1024^(e+2), and t,
      the tenths rounded to nearest, lies between 10 and 10240: the printed
      value is between 1.0 and 1024.0. */
  lemma ByteCountLarge(b: int, div: int, e: nat)
    requires Unit <= b <= MaxInt64
    requires div == Pow(e + 1) && div <= b < div * Unit
    ensures e < |UnitLetters|
    ensures 10 <= Tenths(b, div) <= 10 * Unit
    ensures ByteCountIEC(b) == Scaled(Tenths(b, div), UnitLetters[e])
  {
    var (div', e') := UnitExponent(b);
    PowUnique(e, e', b);
    TenthsRange(b, div, Tenths(b, div));
  }

  /** Only one power of 1024 brackets b. */
  lemma PowUnique(e: nat, e': nat, b: int)
    requires Pow(e + 1) <= b < Pow(e + 1) * Unit
    requires Pow(e' + 1) <= b < Pow(e' + 1) * Unit
    ensures e == e'
  {
    if e < e' {
      PowMonotone(e + 2, e' + 1);
    } else if e' < e {
      PowMonotone(e' + 2, e + 1);
    }
  }

  /** A count of tenths within half a tenth of b/div, for div <= b < 1024 div. */
  lemma TenthsRange(b: int, div: int, t: nat)
    requires div > 0 && div <= b < div * Unit
    requires -div <= 2 * (10 * b - t * div) <= div
    ensures 10 <= t <= 10 * Unit
  {
    MulCompare(div, 9, t);
    MulCompare(div, t, 10 * Unit + 1);
  }

  /** Multiplying by a positive factor keeps the order. */
  lemma MulCompare(d: int, x: int, y: int)
    requires d > 0
    ensures x >= y ==> d * x >= d * y
  {
    if x > y {
      MulAtLeast(d, x - y);
      assert d * x - d * y == d * (x - y);
    }
  }

  /** Worked values: below one KiB, one KiB, one MiB, and the largest count
      still shown in KiB, whose tenths round up to 1024.0. */
  lemma ByteCountExampleBytes()
    ensures ByteCountIEC(1023) == "1023 B"
  {
    assert Digits(1023) == "1023" by {
      assert Digits(102) == "102";
    }
  }

  lemma ByteCountExampleKiB()
    ensures ByteCountIEC(1024) == "1.0 KiB"
  {
    ByteCountLarge(1024, 1024, 0);
    assert Tenths(1024, 1024) == 10;
  }

  lemma ByteCountExampleMiB()
    ensures ByteCountIEC(1048576) == "1.0 MiB"
  {
    assert Pow(2) == 1048576;
    ByteCountLarge(1048576, 1048576, 1);
    assert Tenths(1048576, 1048576) == 10;
  }

  lemma ByteCountExampleRoundUp()
    ensures ByteCountIEC(1048575) == "1024.0 KiB"
  {
    ByteCountLarge(1048575, 1024, 0);
    assert Tenths(1048575, 1024) == 10240;
    assert Digits(1024) == "1024" by {
      assert Digits(102) == "102";
    }
  }
}

=== FILE: wrappers.dfy ===
/** The optional value used for Go's nil pointers and `(value, err)` pairs. */
module Wrappers {

  datatype Option<+T> = None | Some(value: T)
}
